=== FILE: README.md ===
# aura-id-api persistence engine, modelled in Dafny

This project models the persistence layer of the aura-id-api service
(`src/database.py`). In the service, every operation opens its own SQLite
transaction. Here the database file is a `Database.Db` object with these fields:

- the column set of every table;
- the set of recorded schema versions;
- every data table, as a map from row id to a typed row (`Rows`);
- the AUTOINCREMENT counter of each table that the entity methods insert into.

Tables and column names are enumerations (`Rows.Table`, `Rows.Column`).
Nullable columns that the program reads or writes as NULL are `Option`s.
Columns the program never sets to NULL (`registration_date`, `expires`,
`engraving_color`, the boolean flags) are plain strings and booleans, though
their tables allow NULL. Timestamps are integers that are only compared.

The model has these parts:

- **Schema migrator** (`Migrations`, `MigrationFacts`, `Database.Db`).
  `init_db` creates `schema_migrations` and reads the latest recorded
  version with SQLite's text order (`Strings.Less`). It then runs each of
  the eight steps whose version is greater, "1.0.0" to "1.7.0", and records
  "1.7.0".
  - Each step is a value-level function on a `Snapshot`. It creates tables
    that are absent and adds a column only when the column is missing.
  - Step "1.4.0" backfills share links and step "1.5.0" backfills star
    prices.
  - A step that alters a missing table raises, modelled as `None` /
    `ok == false`. The model then restores the store as it was before the
    call (see "Left out" for what SQLite actually keeps).
  - The imperative methods on `Db` are proved to compute exactly those
    functions.
  - The lemmas in `MigrationFacts` prove the following:
    - the steps that run are exactly those newer than the recorded version,
      in ascending order;
    - every step, and `init_db` as a whole, is idempotent;
    - after the backfills, no collection lacks a link and no card lacks a
      price;
    - on a store with no recorded version, `init_db` cannot fail and creates
      every table;
    - on a new store, and on any unversioned store whose tables have at
      least their `CREATE TABLE` columns, it leaves every table and column
      the entity methods use (`Database.Db.Ready`).
- **Airdrop allocator** (`Airdrops`).
  - An airdrop's pool is its `airdrop_cards` rows.
  - The total and available counts are cardinalities of two sets of ids.
  - `get_random_available_card` makes an arbitrary choice among the
    unreserved entries.
  - `reserve_card` marks the entry reserved, hands the card to the user and
    saves the entry, as three separate writes.
  - `Airdrops.Claim` runs the two calls in sequence. It proves that exactly
    one entry leaves the available set, one fewer is left, no pool changes,
    the card passes to the user, and nothing else in the store changes.
- **Collection price** (`Pricing`, `Entities.Collection.UpdatePrice`).
  - The trade-link query returns the qualifying links newest first. Links
    with equal timestamps may come in any order.
  - The loop keeps the first price per card, and the sum is taken over a
    map.
  - The result is proved to be the sum of each card's latest active,
    non-gift price. When no card has two tied links, that result is unique.
    A new inactive or gift link never changes it.
- **Access keys** (`AccessKeys`). `generate_access_key` always produces
  `XXXX-XXXX-XXXX` over `[A-Z0-9]`. Joining three groups and splitting a
  key into groups are inverse operations.
- **Entity objects** (`Entities`, `Airdrops`). These are classes whose
  methods assign their fields and write the tables:
  - `User.save` is an upsert keyed by the unique Telegram id. It keeps the
    first `created_at` and always gives the row a fresh id. It only sets
    the object's id when the object had none, so a user object saved twice
    holds the id of a row that no longer exists (the last `ensures` of
    `Entities.User.Save`).
  - `Card.save` and `Airdrop.save` insert under a fresh id or update the
    stored row.
  - `AirdropCard.save` writes only the reservation columns.
  - `deactivate` only clears `is_active`.
  - The `from_row` mappers give defaults for columns the table lacks.

Some behaviours of the code worth noting:

- Claims do not check whether the airdrop is active.
- A collision of access keys or link ids is not retried.
- `INSERT OR IGNORE` into `airdrop_cards` does not deduplicate, because that
  table has no unique constraint. It only skips a row whose `airdrop_id` is
  NULL.

## Model

| member | source | states |
|---|---|---|
| Strings.LessPrefix | src/database.py:106-135 | a proper prefix comes before the longer string, and no string comes before one of its prefixes ("1.0" < "1.0.0") |
| Strings.LessIrreflexive | src/database.py:106-135 | no version string is less than itself |
| Strings.LessTransitive | src/database.py:106-135 | the text order of versions is transitive |
| Strings.LessTotal | src/database.py:101-103 | two distinct version strings are always ordered one way or the other, so `ORDER BY version DESC LIMIT 1` has one answer |
| Strings.LessAsymmetric | src/database.py:106-135 | no two versions are each less than the other |
| AccessKeys.GenerateAccessKey | src/database.py:37-44 | the key is 14 characters, `-` at positions 4 and 9, every other character in `[A-Z0-9]` |
| AccessKeys.AlphabetIsKeyChars | src/database.py:39 | `ascii_uppercase + digits` holds only `[A-Z0-9]` characters |
| AccessKeys.Groups | src/database.py:40-44 | a well-formed key splits into three groups of four key characters |
| AccessKeys.JoinGroups | src/database.py:40-44 | joining three groups with `-` gives a well-formed key whose groups are exactly the parts (round trip) |
| AccessKeys.KeyIsJoinOfGroups | src/database.py:44 | every well-formed key is the join of its own groups (the other round trip) |
| Rows.LinkIdOf | src/database.py:473-475 | `uuid4().hex[:16]` is 16 lower-case hex digits, non-empty, a prefix of the uuid |
| Rows.OrElse | src/database.py:465-468 | Python's `s or default`: a non-empty string is kept, None or '' gives the default |
| Rows.CardFromRow | src/database.py:416-425 | every column is copied; a missing `access_key` column gives None, a missing `star_price` column gives 1 |
| Rows.CardFromRowLossless | src/database.py:416-418 | once both late columns exist, decoding a card row returns it unchanged |
| Rows.CollectionFromRow | src/database.py:545-555 | missing `star_price` gives 1, missing or empty description gives '', missing or empty link gives a fresh 16-digit link, `is_published` only from an existing column |
| Migrations.CreateIfAbsent | src/database.py:93-98 | `CREATE TABLE IF NOT EXISTS`: the table exists afterwards; an existing table keeps its columns; rows and versions unchanged |
| Migrations.AddColumn | src/database.py:231-233 | `ALTER TABLE … ADD COLUMN` adds exactly that column to that table and records no version |
| Migrations.EnsureColumn | src/database.py:228-233 | add-if-missing: the column is present afterwards, the schema is unchanged when it was there already, nothing is lost |
| Migrations.MigrateToV1_0_0 | src/database.py:148-209 | the four base tables exist afterwards; nothing is lost |
| Migrations.MigrateToV1_1_0 | src/database.py:211-233 | succeeds exactly when `collections` exists; then `collection_links`, `description` and `is_published` exist |
| Migrations.MigrateToV1_2_0 | src/database.py:235-241 | succeeds exactly when `cards` exists; then `cards.access_key` exists |
| Migrations.MigrateToV1_3_0 | src/database.py:243-253 | succeeds exactly when `collections` exists; then the three reservation columns exist |
| Migrations.MigrateToV1_4_0 | src/database.py:256-271 | succeeds exactly when `collections` exists; then `link_id` exists and no row is added or lost |
| Migrations.MigrateToV1_5_0 | src/database.py:312-320 | succeeds exactly when `cards` exists; then `star_price` exists and no row is added or lost |
| Migrations.MigrateToV1_6_0 | src/database.py:274-302 | the two airdrop tables exist afterwards; nothing is lost |
| Migrations.MigrateToV1_7_0 | src/database.py:304-309 | succeeds exactly when `airdrops` exists; then `cover_image` exists |
| Migrations.Step | src/database.py:105-135 | a successful step never drops a table, column or row and records no version |
| Migrations.RunSteps | src/database.py:105-135 | a successful run of steps never drops a table, column or row |
| Migrations.BackfillLinks | src/database.py:267-271 | no collection is left without a link; a collection with a usable link keeps its row; the others get the first 16 hex digits of their uuid and nothing else changes |
| Migrations.DefaultStarPrices | src/database.py:320 | every card has a price afterwards; a priced card keeps its row; an unpriced one gets 1 and nothing else changes |
| Migrations.Migrate | src/database.py:89-138 | a successful `init_db` records exactly "1.7.0" in addition, creates `schema_migrations`, drops no table or column and adds or removes no row |
| Migrations.LatestExists | src/database.py:101-103 | every set of recorded versions has a latest one ("0.0.0" when empty) |
| Migrations.LatestUnique | src/database.py:101-103 | the latest recorded version is unique |
| Migrations.Latest | src/database.py:101-103 | the version `init_db` reads is the greatest recorded one, or "0.0.0" |
| MigrationFacts.StepsAscending | src/database.py:106-133 | the step versions are in strictly ascending text order |
| MigrationFacts.StepsAtMostCurrent | src/database.py:133-138 | no step version is greater than the recorded "1.7.0" |
| Migrations.PendingFromAscending | src/database.py:106-135 | the steps considered from index k on are indices from k on, strictly ascending |
| Migrations.PendingFromMembers | src/database.py:106-135 | from index k on, a step runs if and only if its version is greater than the current one |
| Migrations.PendingFrom | src/database.py:106-135 | the guarded blocks from index k on select at most the steps that remain; which ones, and in what order, `Migrations.PendingFromMembers` and `Migrations.PendingFromAscending` state |
| Migrations.Pending | src/database.py:101-135 | `init_db` runs exactly the steps whose version is greater than the recorded one, in ascending order |
| MigrationFacts.NothingPendingWhenCurrent | src/database.py:106-135 | with "1.7.0" or newer recorded, no step runs |
| MigrationFacts.StepIdempotent | src/database.py:148-320 | every step run again on its own result changes nothing, whatever link ids the second run would draw |
| MigrationFacts.EarlyStepIdempotent | src/database.py:148-253 | steps "1.0.0" to "1.3.0" run twice equal running once |
| MigrationFacts.LateStepIdempotent | src/database.py:274-309 | steps "1.6.0" and "1.7.0" run twice equal running once |
| MigrationFacts.BackfillGivesLinks | src/database.py:267-271 | after "1.4.0" every collection has a non-empty link; one that had a usable link keeps its row, the others get 16 hex digits |
| MigrationFacts.BackfillIdempotent | src/database.py:256-271 | a second "1.4.0" finds nothing to backfill and changes nothing |
| MigrationFacts.BackfillKeepsLinked | src/database.py:267-271 | the backfill leaves a table whose rows all have links unchanged |
| MigrationFacts.DefaultPricesFill | src/database.py:314-320 | after "1.5.0" every card has a star price; a card that had one keeps its row, the others get 1 |
| MigrationFacts.DefaultPricesIdempotent | src/database.py:312-320 | a second "1.5.0" changes nothing |
| MigrationFacts.StarPriceDefault | src/database.py:318 | adding `star_price INTEGER DEFAULT 1` prices every existing card at 1 |
| MigrationFacts.DefaultKeepsPriced | src/database.py:320 | the NULL-price update leaves a table whose cards all have prices unchanged |
| MigrationFacts.LatestAfterRecording | src/database.py:101-138 | after recording "1.7.0" the latest version is "1.7.0", unless a newer one was already recorded |
| MigrationFacts.MigrateRecordsCurrent | src/database.py:138 | a successful `init_db` adds exactly "1.7.0" to the recorded versions, which is then the latest unless a newer one exists |
| MigrationFacts.MigrateIdempotent | src/database.py:89-138 | running `init_db` on a store it has just migrated changes no table, column, row or recorded version |
| MigrationFacts.Advance | src/database.py:106-135 | one guarded step: pending and successful, or skipped, the rest of the run continues from the new state |
| MigrationFacts.Fails | src/database.py:106-135 | a pending step that fails makes the whole run fail |
| MigrationFacts.MigrateRunsAll | src/database.py:89-138 | with no version recorded, `init_db` is the version table, all eight steps and the record of "1.7.0" |
| MigrationFacts.MigrateFromLatest | src/database.py:100-138 | `init_db` in terms of the version it actually read |
| MigrationFacts.RunStepsCons | src/database.py:106-135 | a run of steps is its first step followed by the rest |
| MigrationFacts.NoVersionBeforeAll | src/database.py:103-135 | every step version is greater than "0.0.0" |
| MigrationFacts.PendingFromNoVersion | src/database.py:103-135 | from "0.0.0", every step from index k on is pending |
| MigrationFacts.AllPendingWhenNoneRecorded | src/database.py:101-135 | with no version recorded, all eight steps run in order |
| MigrationFacts.StepAdvances | src/database.py:148-309 | each step finds the tables it alters when run after the earlier ones, and succeeds |
| MigrationFacts.EarlyStepAdvances | src/database.py:148-253 | steps "1.0.0" to "1.3.0" succeed after the earlier steps |
| MigrationFacts.LateStepAdvances | src/database.py:256-309 | steps "1.4.0" to "1.7.0" succeed after the earlier steps |
| MigrationFacts.SucceedsFrom | src/database.py:105-135 | from the tables present before step k, the remaining steps all succeed and every table exists at the end |
| MigrationFacts.MigrateWhenNoneRecorded | src/database.py:89-138 | on a store with no recorded version, `init_db` cannot fail, every table exists afterwards and "1.7.0" is the one version recorded |
| MigrationFacts.RunSuffix | src/database.py:105-135 | a successful step k followed by a successful run of the steps after it is the run from k |
| MigrationFacts.CreateKeepsCreated | src/database.py:93-98 | `CREATE TABLE IF NOT EXISTS` with a table's own columns keeps every table at least at its `CREATE TABLE` columns |
| MigrationFacts.GrowKeepsCreated | src/database.py:228-233 | a change that adds no table and drops no column keeps every table at least at its `CREATE TABLE` columns |
| MigrationFacts.EnsureKeepsCreated | src/database.py:228-233 | add-if-missing keeps the set of tables and every table's `CREATE TABLE` columns |
| MigrationFacts.RequiredV1_0_0 | src/database.py:148-209 | on a store with `schema_migrations` whose tables have at least their `CREATE TABLE` columns, "1.0.0" leaves the four base tables with at least their columns |
| MigrationFacts.RequiredV1_1_0 | src/database.py:211-233 | after "1.0.0", "1.1.0" succeeds and adds `collection_links`, keeping every table's columns |
| MigrationFacts.CreatedV1_1_0 | src/database.py:211-233 | on a store with `collections`, "1.1.0" succeeds and keeps every table at least at its `CREATE TABLE` columns |
| MigrationFacts.RequiredV1_2_0 | src/database.py:235-241 | after the earlier steps, "1.2.0" succeeds and `cards.access_key` exists |
| MigrationFacts.RequiredV1_3_0 | src/database.py:243-253 | after the earlier steps, "1.3.0" succeeds and the three reservation columns exist |
| MigrationFacts.RequiredV1_4_0 | src/database.py:256-271 | after the earlier steps, "1.4.0" succeeds and every column added so far is still there |
| MigrationFacts.RequiredV1_5_0 | src/database.py:312-320 | after the earlier steps, "1.5.0" succeeds and `cards.star_price` exists |
| MigrationFacts.RequiredV1_6_0 | src/database.py:274-302 | after the earlier steps, "1.6.0" leaves the two airdrop tables with at least their columns |
| MigrationFacts.RequiredV1_7_0 | src/database.py:304-309 | after the earlier steps, "1.7.0" succeeds and `airdrops.cover_image` exists |
| MigrationFacts.StepKeepsRequired | src/database.py:105-135 | each step, run after the earlier ones, succeeds and leaves what the later steps and the entity methods need |
| MigrationFacts.CompleteFrom | src/database.py:105-135 | from what exists before step k, the remaining steps succeed and leave everything the last step requires |
| MigrationFacts.TargetColumns | src/database.py:148-320 | a migrated table's columns are its `CREATE TABLE` columns plus those the later steps add |
| MigrationFacts.RequiredIsComplete | src/database.py:148-320 | what exists after the last step is every table and column the entity methods use |
| MigrationFacts.MigrateCompletes | src/database.py:89-138 | on a store with no recorded version whose tables have at least their `CREATE TABLE` columns, `init_db` succeeds and the store is ready for the entity methods |
| Database.IdsWithinInsert | src/database.py:153 | an insert under the next AUTOINCREMENT id keeps every id positive and within the counter |
| Database.Db.CreateTable | src/database.py:93-98 | the store becomes `CreateIfAbsent` of the old store; other tables and counters unchanged |
| Database.Db.AlterAddColumn | src/database.py:231 | the store becomes `AddColumn` of the old store; other tables and counters unchanged |
| Database.Db.AddUnlessListed | src/database.py:228-233 | the `PRAGMA table_info` guard then the `ALTER`: the store becomes `EnsureColumn` of the old store |
| Database.Db.Restore | src/database.py:31-33 | rollback: the migrated part of the store is put back exactly |
| Database.Db.MigrateV1_0_0 | src/database.py:148-209 | the store becomes `MigrateToV1_0_0` of the old one |
| Database.Db.MigrateV1_1_0 | src/database.py:211-233 | succeeds exactly when `MigrateToV1_1_0` does, and then the store is its result |
| Database.Db.MigrateV1_2_0 | src/database.py:235-241 | succeeds exactly when `MigrateToV1_2_0` does, and then the store is its result |
| Database.Db.MigrateV1_3_0 | src/database.py:243-253 | succeeds exactly when `MigrateToV1_3_0` does, and then the store is its result |
| Database.Db.BackfillCollectionLinks | src/database.py:267-271 | the select-then-update loop leaves the collections exactly as `BackfillLinks` describes; nothing else changes |
| Database.Db.MigrateV1_4_0 | src/database.py:256-271 | succeeds exactly when `MigrateToV1_4_0` does, and then the store is its result |
| Database.Db.MigrateV1_5_0 | src/database.py:312-320 | succeeds exactly when `MigrateToV1_5_0` does, and then the store is its result |
| Database.Db.MigrateV1_6_0 | src/database.py:274-302 | the store becomes `MigrateToV1_6_0` of the old one |
| Database.Db.MigrateV1_7_0 | src/database.py:304-309 | succeeds exactly when `MigrateToV1_7_0` does, and then the store is its result |
| Database.Db.LatestVersion | src/database.py:101-103 | the version read is the greatest recorded one, or "0.0.0" |
| Database.Db.RunIfPending | src/database.py:106-135 | one `if current_version < v` block: the remaining run continues from the new state, or the whole run fails |
| Database.Db.RunTwoSteps | src/database.py:106-135 | two consecutive `if current_version < v` blocks: the remaining run continues from the new state, or the whole run fails |
| Database.Db.RunPending | src/database.py:105-135 | the eight blocks succeed exactly when the run of the pending steps does, and leave its result |
| Database.Db.InitDb | src/database.py:89-138 | `init_db` succeeds exactly when `Migrate` does and leaves its result; on failure the store is restored; no other table is touched; the store's constraints are kept; on a new or unversioned store it succeeds and the store is `Ready()` |
| Database.Db.MigrateOrRollBack | src/database.py:89-138 | the body of `init_db` computes `Migrate`, and a failure restores the store; no other table is touched |
| Pricing.SelectSales | src/database.py:521-525 | the query answer lists every active non-gift link of the collection's cards exactly once, newest first |
| Pricing.CollectLatestPrices | src/database.py:528-532 | the loop maps each card in the rows to the price on its first row, and nothing else |
| Pricing.FirstIsNewest | src/database.py:524-532 | in a newest-first listing, the first link of each card is one of that card's newest qualifying links |
| Pricing.FirstIsLatest | src/database.py:524-532 | keeping the first price per card of a newest-first listing gives each card with a qualifying link the price of one of its newest links, and no other card |
| Pricing.TotalRemove | src/database.py:534 | `sum(d.values())` does not depend on the order the values are taken |
| Pricing.SumPrices | src/database.py:534 | the loop computes the sum of the map's values |
| Pricing.LatestPriceTotal | src/database.py:517-534 | the query, the loop and the sum together give the sum of each card's latest qualifying price |
| Pricing.LatestPricesUnique | src/database.py:524-532 | when no card has two qualifying links with equal timestamps, the per-card prices are determined |
| Pricing.NonQualifyingIgnored | src/database.py:524 | a link that is inactive or a gift is never selected: adding one changes nothing, deactivating a link drops it from the selection |
| Pricing.NonQualifyingKeepsLatest | src/database.py:524-532 | a new inactive or gift link leaves every card's latest price as it was |
| Pricing.NonQualifyingKeepsPrice | src/database.py:517-534 | a new inactive or gift link never changes the collection's price |
| Pricing.PricedCardsInCollection | src/database.py:519-525 | only cards of the collection are priced, so links of other cards never count |
| Entities.CreatedAtFor | src/database.py:335 | the COALESCE: the stored user's creation time if the Telegram id is stored, else the object's |
| Entities.WithoutTelegramId | src/database.py:334 | the REPLACE deletes exactly the rows with the Telegram id and keeps the others unchanged |
| Entities.StoredCreatedAt | src/database.py:335 | the sub-query returns the COALESCE value when Telegram ids are unique |
| Entities.UpsertUser | src/database.py:333-336 | the new row sits under the new id with the kept creation time; every other row is an old row with a different Telegram id, and all of those stay |
| Entities.UpsertUserUnique | src/database.py:333-336 | after the upsert exactly one row has the Telegram id; Telegram ids stay unique; ids stay within the counter |
| Entities.UpsertUserKeepsCreatedAt | src/database.py:335 | a user saved again keeps the first creation time, and the old row is gone |
| Entities.User.constructor | src/database.py:323-329 | a new user object has the given fields, with no username, no first name and not admin by default, creation time now and no id |
| Entities.User.Save | src/database.py:331-340 | the store becomes the upsert under the next id; the object's id is set only when it had none, so an object saved again holds an id no longer stored |
| Entities.UpdatedCard | src/database.py:406-412 | the update keeps the stored card number and creation time and takes every other field from the object |
| Entities.Card.constructor | src/database.py:377-390 | a new card has the given fields, with the source's defaults (`"Never"`, `"white"`, no background, no collection, no access key, price 1) for those not given, today's date when no registration date is given, and no id |
| Entities.Card.FromRow | src/database.py:416-425 | the object holds the decoded row and its id |
| Entities.Card.GetById | src/database.py:416-432 | needs only the `cards` table: none exactly when no card has the id; otherwise the stored row decoded by `from_row` (no access key and price 1 when those columns are missing), and the stored row unchanged on a migrated store |
| Entities.Card.Save | src/database.py:392-413 | without an id, the row is inserted under the next id, which the object takes; with one, the stored row, if any, is updated; nothing else changes |
| Entities.CardsOf | src/database.py:587-590 | the cards whose `collection_id` is the collection's id; none for a collection without an id |
| Entities.SetCollectionPrice | src/database.py:540 | the `UPDATE … SET star_price` changes only that collection's price |
| Entities.Collection.constructor | src/database.py:463-471 | the star price defaults to 1, the description to '', a missing or empty link becomes 16 hex digits, never published, no id |
| Entities.Collection.UpdatePrice | src/database.py:497-542 | 0 when collections are disabled or there are no cards, otherwise the sum of the latest prices; stored on the object and in that collection's row only |
| Entities.DeactivateTradeLink | src/database.py:644 | only the link with the id becomes inactive; no other field or row changes |
| Entities.DeactivateCollectionLink | src/database.py:695 | only the link with the id becomes inactive; no other field or row changes |
| Entities.TradeLink.constructor | src/database.py:594-602 | a new trade link is active, not a gift by default, created now, without an id |
| Entities.TradeLink.Deactivate | src/database.py:642-645 | the object and its stored row become inactive; nothing else changes |
| Entities.CollectionLink.constructor | src/database.py:648-654 | a new collection link is active, created now, without an id |
| Entities.CollectionLink.Deactivate | src/database.py:693-696 | the object and its stored row become inactive; nothing else changes |
| Airdrops.PoolOf | src/database.py:760-763 | the entries of the airdrop; none for an airdrop without an id |
| Airdrops.AvailableOf | src/database.py:765-768 | the entries of the airdrop that are not reserved |
| Airdrops.AvailableAtMostTotal | src/database.py:760-768 | never more cards available than the airdrop holds |
| Airdrops.StoreReservation | src/database.py:800-804 | only the three reservation columns of that entry change |
| Airdrops.ReserveLowersAvailable | src/database.py:827-838 | reserving an available entry removes exactly it from its airdrop's available set, one fewer; no pool and no other airdrop changes |
| Airdrops.NewEntry | src/database.py:773-775 | the inserted entry belongs to the airdrop and the card, and nobody has reserved it |
| Airdrops.AddEntrySets | src/database.py:770-775 | a new entry joins its own airdrop's pool and available set and no other |
| Airdrops.AddEntryCounts | src/database.py:770-775 | a new entry adds one to its airdrop's total and available counts and changes no other airdrop |
| Airdrops.SavedEntries | src/database.py:791-805 | save inserts a new entry under the next id, or writes a stored one's reservation columns |
| Airdrops.SavedId | src/database.py:793-798 | after save the entry always has an id, the old one if it had one |
| Airdrops.SavedSeq | src/database.py:793-798 | the counter moves by one only on an insert |
| Airdrops.UpdatedAirdrop | src/database.py:718-722 | the update keeps the stored creator and creation time and takes every other field from the object |
| Airdrops.SavedAirdrops | src/database.py:709-723 | an insert under the next id, or an update that keeps the set of airdrops |
| Airdrops.SavedAirdropsTouchesOne | src/database.py:718-722 | the update rewrites only that airdrop's row, with the object's `is_active` |
| Airdrops.Airdrop.constructor | src/database.py:699-707 | a new airdrop is active, not posted, description '' by default, no id |
| Airdrops.Airdrop.Save | src/database.py:709-723 | the airdrop table and counter become `SavedAirdrops`; nothing else changes |
| Airdrops.Airdrop.Deactivate | src/database.py:777-779 | the object becomes inactive and is saved; its stored row, new or existing, is then inactive |
| Airdrops.Airdrop.GetTotalCards | src/database.py:760-763 | the number of the airdrop's entries |
| Airdrops.Airdrop.GetAvailableCards | src/database.py:765-768 | the number of unreserved entries, at most the total |
| Airdrops.Airdrop.AddCard | src/database.py:770-775 | appends one unreserved entry, even for a card already in the pool; total and available each grow by one; without an id nothing changes |
| Airdrops.AirdropCard.constructor | src/database.py:783-789 | a new entry is unreserved and has no id |
| Airdrops.AirdropCard.FromRow | src/database.py:808-814 | the object holds the stored row and its id |
| Airdrops.AirdropCard.Save | src/database.py:791-805 | the entry table and counter become `SavedEntries`; nothing else changes |
| Airdrops.AirdropCard.GetRandomAvailableCard | src/database.py:817-825 | none exactly when the airdrop has no available entry; otherwise some available entry of that airdrop, as stored |
| Airdrops.AirdropCard.ReserveCard | src/database.py:827-839 | the entry is reserved by the user at the given time; the card, if stored, passes to the user and is returned; a missing card gives none and the entry is still reserved |
| Airdrops.NewOwner | src/database.py:833-836 | only that card's owner changes |
| Airdrops.TransferCard | src/database.py:833-836 | the card, if stored, is returned with the new owner and saved; nothing else changes |
| Airdrops.Claim | src/database.py:817-839 | pick then reserve: nothing changes when none is available; otherwise one available entry is stored as reserved by the user at that time, the available count drops by one, no pool changes, the card passes to the user, and no other table changes |

## Left out

- Connections, cursors and commit (`src/database.py:17-35`). Each operation acts directly on the `Db` object. Only `init_db` models the rollback of a failed transaction.
- The `PRAGMA integrity_check` and its message (`src/database.py:140-146`). They only log.
- The filesystem helpers `get_cards_directory` and `cleanup_old_temp_files` (`src/database.py:46-87`).
- Randomness:
  - `secrets.choice` is an arbitrary pick from the alphabet.
  - `ORDER BY RANDOM()` is an arbitrary pick among the available entries.
  - `uuid4` is a parameter. The `v1.4.0` backfill takes a function from collection id to uuid.
  - Uniqueness of access keys and link ids is not modelled. The unique index on `collections.link_id` and its possible failure are left out.
- Wall-clock time. `created_at`, `reserved_at` and the date of a new card are parameters. The applied time of a version (`schema_migrations.applied_at`, `src/database.py:96`) is not modelled: versions are a set of strings. Every `init_db` rewrites that time for "1.7.0" through its `INSERT OR REPLACE` (`src/database.py:138`).
- Concurrency. Two claims racing between the pick and the reservation cannot be expressed in a sequential model.
- Foreign keys. SQLite does not enforce them by default, so no foreign key is modelled.
- `Database.Db.RunPending`: the eight `if` blocks are modelled as calls of one dispatching method, `RunIfPending`, with the index of the step, two at a time through `RunTwoSteps`.
- `Database.Db.InitDb`: on failure the model restores the whole store (`Database.Db.Restore`). Python's `sqlite3` module opens a transaction only before the first data-changing statement (`src/database.py:19`, `31-33`), so the `CREATE TABLE` and `ALTER TABLE` statements that run before it are already committed when the rollback happens. With "1.0.0" recorded and no `collections` table, for example, `schema_migrations` and `collection_links` (`src/database.py:214-225`) stay after the failed `ALTER` at line 231. The model does not capture that partial schema.
- `Entities.Collection.UpdatePrice`, `Entities.User.Save`, `Entities.Card.Save`, `Entities.TradeLink.Deactivate`, `Entities.CollectionLink.Deactivate` and the airdrop methods that write all require `Ready()`: every table and column of a migrated store exists. This is a uniform simplification. The service runs `init_db` at startup (`src/api_server.py:514`), and `MigrationFacts.MigrateCompletes` proves that this makes the store `Ready()`. The tables each method really needs are fewer, and before migration only some of them raise in the source:
  - `User.save` writes only `users` columns present since "1.0.0";
  - `TradeLink.deactivate` touches only `trade_links.is_active`, present since "1.0.0";
  - `CollectionLink.deactivate` needs only `collection_links`, present since "1.1.0";
  - `update_price` reads cards through `from_row`, which tolerates the late columns, and otherwise uses columns present since "1.0.0";
  - `Card.save` names `access_key` and `star_price`, so it raises before "1.5.0";
  - the airdrop methods raise before "1.6.0".

  Runs of these methods on a partly migrated store are not modelled. `Entities.Card.GetById` needs only the `cards` table, since `from_row` supplies the missing columns.
- `ENABLE_COLLECTIONS`: `update_price` imports it from `config` (`src/database.py:499`), which does not define it, so in the source the import raises. The model takes the flag as a parameter of `Entities.Collection.UpdatePrice` and models both values.
- `Collection.save`, the `save` methods of `TradeLink` and `CollectionLink`, and the lookups other than `Card.get_by_id` (`get_by_telegram_id`, `get_by_link_id`, `get_active_*`, `get_cards`, `get_owner`, `Card.delete`) are not part of this model.
- `src/api_server.py` (HTTP routes) and `src/config.py` (environment settings) are not part of this model.

=== FILE: access_keys.dfy ===
/**
 * Access keys: three groups of four characters over the upper-case letters
 * and the digits, joined by '-'. The random source is modelled as an
 * arbitrary pick from the alphabet, so only the format is a promise.
 */
module AccessKeys {

  /** `string.ascii_uppercase + string.digits` */
  const KeyAlphabet: string := "ABCDEFGHIJKLMNOPQRSTUVWXYZ0123456789"

  const GroupCount: nat := 3
  const GroupLength: nat := 4
  const Separator: char := '-'

  /** `[A-Z0-9]` */
  predicate IsKeyChar(c: char)
  {
    'A' <= c <= 'Z' || '0' <= c <= '9'
  }

  /** One group of the key: four characters from the alphabet. */
  predicate IsGroup(g: string)
  {
    |g| == GroupLength && forall i :: 0 <= i < |g| ==> IsKeyChar(g[i])
  }

  /** The format `XXXX-XXXX-XXXX`, positions 4 and 9 holding the separator. */
  predicate WellFormedKey(k: string)
  {
    && |k| == 14
    && k[4] == Separator && k[9] == Separator
    && forall i :: 0 <= i < 14 && i != 4 && i != 9 ==> IsKeyChar(k[i])
  }

  /** `sep.join(parts)` */
  function Join(parts: seq<string>, sep: char): string
  {
    if |parts| == 0 then ""
    else if |parts| == 1 then parts[0]
    else parts[0] + [sep] + Join(parts[1..], sep)
  }

  /** The three groups of a key, the inverse of joining them. */
  function Groups(k: string): (gs: seq<string>)
    requires WellFormedKey(k)
    ensures |gs| == GroupCount && forall i :: 0 <= i < |gs| ==> IsGroup(gs[i])
  {
    [k[..4], k[5..9], k[10..]]
  }

  /** The alphabet the generator picks from holds only characters of `[A-Z0-9]`. */
  lemma AlphabetIsKeyChars()
    ensures forall i :: 0 <= i < |KeyAlphabet| ==> IsKeyChar(KeyAlphabet[i])
  {
  }

  /** Joining three groups gives a well-formed key whose groups are the parts. */
  lemma JoinGroups(parts: seq<string>)
    requires |parts| == GroupCount && forall i :: 0 <= i < |parts| ==> IsGroup(parts[i])
    ensures WellFormedKey(Join(parts, Separator))
    ensures Groups(Join(parts, Separator)) == parts
  {
    var a, b, c := parts[0], parts[1], parts[2];
    assert parts[1..][1..] == [c];
    assert Join(parts[1..], Separator) == b + [Separator] + c;
    var k := a + [Separator] + b + [Separator] + c;
    assert Join(parts, Separator) == k;
    assert forall i :: 0 <= i < 4 ==> k[i] == a[i] && k[5 + i] == b[i] && k[10 + i] == c[i];
    assert k[..4] == a && k[5..9] == b && k[10..] == c;
  }

  /** Every well-formed key is the join of its groups: the format admits no other shape. */
  lemma KeyIsJoinOfGroups(k: string)
    requires WellFormedKey(k)
    ensures Join(Groups(k), Separator) == k
  {
    var gs := Groups(k);
    assert Join(gs[2..], Separator) == gs[2];
    assert Join(gs[1..], Separator) == gs[1] + [Separator] + gs[2];
    assert k == k[..4] + [k[4]] + k[5..9] + [k[9]] + k[10..];
  }

  /**
   * `generate_access_key`: three times, pick four characters from the
   * alphabet; join the groups with '-'.
   */
  method GenerateAccessKey() returns (key: string)
    ensures WellFormedKey(key)
  {
    var parts: seq<string> := [];
    for g := 0 to GroupCount
      invariant |parts| == g
      invariant forall i :: 0 <= i < |parts| ==> IsGroup(parts[i])
    {
      var part: string := "";
      for j := 0 to GroupLength
        invariant |part| == j
        invariant forall i :: 0 <= i < |part| ==> IsKeyChar(part[i])
      {
        AlphabetIsKeyChars();
        assert KeyAlphabet[0] in KeyAlphabet;
        var c :| c in KeyAlphabet;
        part := part + [c];
      }
      parts := parts + [part];
    }
    JoinGroups(parts);
    key := Join(parts, Separator);
  }
}

=== FILE: airdrops.dfy ===
/**
 * Airdrops: a pool of cards that users claim one at a time. Each pool entry
 * is an `airdrop_cards` row; a claim picks a random unreserved entry of the
 * airdrop, marks it reserved for the user and hands the card to the user.
 */
module Airdrops {
  import opened Wrappers
  import opened Rows
  import opened Database
  import opened Entities
  import opened Sets

  // ----- the pool, as tables -----

  /**
   * `WHERE airdrop_id = ?`: the entries of airdrop `id`. An airdrop without
   * an id compares with NULL, which matches nothing.
   */
  function PoolOf(table: map<int, AirdropCardRow>, id: Option<int>): (r: set<int>)
    ensures id.None? ==> r == {}
    ensures forall k :: k in r <==> id.Some? && k in table && table[k].airdropId == id.value
  {
    if id.None? then {} else set k | k in table && table[k].airdropId == id.value
  }

  /** `WHERE airdrop_id = ? AND is_reserved = 0`: the entries still to be claimed. */
  function AvailableOf(table: map<int, AirdropCardRow>, id: Option<int>): (r: set<int>)
    ensures r <= PoolOf(table, id)
    ensures forall k :: k in r <==> k in PoolOf(table, id) && !table[k].isReserved
  {
    set k | k in PoolOf(table, id) && !table[k].isReserved
  }

  /** Never more cards left than the airdrop holds. */
  lemma AvailableAtMostTotal(table: map<int, AirdropCardRow>, id: Option<int>)
    ensures |AvailableOf(table, id)| <= |PoolOf(table, id)|
  {
    SubsetCard(AvailableOf(table, id), PoolOf(table, id));
  }

  lemma {:induction false} SubsetCard(a: set<int>, b: set<int>)
    requires a <= b
    ensures |a| <= |b|
    decreases |b|
  {
    if b - a != {} {
      var x := Member(b - a);
      SubsetCard(a, b - {x});
    } else {
      forall y | y in b
        ensures y in a
      {
        assert y !in b - a;
      }
      assert a == b;
    }
  }

  /**
   * `UPDATE airdrop_cards SET is_reserved = ?, reserved_by = ?, reserved_at = ?
   * WHERE id = ?`: only the reservation columns of entry `id` change.
   */
  function StoreReservation(table: map<int, AirdropCardRow>, id: int, row: AirdropCardRow): (r: map<int, AirdropCardRow>)
    ensures r.Keys == table.Keys
    ensures forall k :: k in r && k != id ==> r[k] == table[k]
    ensures id in r ==> r[id].airdropId == table[id].airdropId && r[id].cardId == table[id].cardId
    ensures id in r ==> r[id].isReserved == row.isReserved && r[id].reservedBy == row.reservedBy && r[id].reservedAt == row.reservedAt
  {
    if id in table then
      table[id := table[id].(isReserved := row.isReserved, reservedBy := row.reservedBy, reservedAt := row.reservedAt)]
    else table
  }

  /** A new entry of airdrop `id` for card `cardId`: nobody has reserved it yet. */
  function NewEntry(id: int, cardId: int): (r: AirdropCardRow)
    ensures r.airdropId == id && r.cardId == cardId
    ensures !r.isReserved && r.reservedBy.None? && r.reservedAt.None?
  {
    AirdropCardRow(id, cardId, false, None, None)
  }

  /**
   * Reserving an available entry takes exactly that entry out of its
   * airdrop's available cards: one fewer left, the total unchanged, and
   * every other airdrop unaffected.
   */
  lemma ReserveLowersAvailable(table: map<int, AirdropCardRow>, k: int, userId: int, now: int)
    requires k in table && !table[k].isReserved
    ensures var r := StoreReservation(table, k, table[k].(isReserved := true, reservedBy := Some(userId), reservedAt := Some(now)));
      && AvailableOf(r, Some(table[k].airdropId)) == AvailableOf(table, Some(table[k].airdropId)) - {k}
      && |AvailableOf(r, Some(table[k].airdropId))| == |AvailableOf(table, Some(table[k].airdropId))| - 1
      && (forall a :: PoolOf(r, a) == PoolOf(table, a))
      && (forall a :: a != Some(table[k].airdropId) ==> AvailableOf(r, a) == AvailableOf(table, a))
  {
    var r := StoreReservation(table, k, table[k].(isReserved := true, reservedBy := Some(userId), reservedAt := Some(now)));
    var a := Some(table[k].airdropId);
    assert AvailableOf(r, a) == AvailableOf(table, a) - {k};
    assert k in AvailableOf(table, a);
    forall b
      ensures PoolOf(r, b) == PoolOf(table, b)
    {
    }
    forall b | b != a
      ensures AvailableOf(r, b) == AvailableOf(table, b)
    {
      assert k !in AvailableOf(table, b);
    }
  }

  /**
   * Adding an entry under a fresh id adds one card to the airdrop, both to
   * its total and to what is available, and none to any other airdrop.
   */
  lemma AddEntryCounts(table: map<int, AirdropCardRow>, newId: int, id: int, cardId: int)
    requires newId !in table
    ensures var r := table[newId := NewEntry(id, cardId)];
      && |PoolOf(r, Some(id))| == |PoolOf(table, Some(id))| + 1
      && |AvailableOf(r, Some(id))| == |AvailableOf(table, Some(id))| + 1
      && (forall a :: a != Some(id) ==> PoolOf(r, a) == PoolOf(table, a) && AvailableOf(r, a) == AvailableOf(table, a))
  {
    var pool := PoolOf(table, Some(id));
    var available := AvailableOf(table, Some(id));
    AddEntrySets(table, newId, id, cardId);
    assert newId !in pool && newId !in available;
    assert |pool + {newId}| == |pool| + 1;
    assert |available + {newId}| == |available| + 1;
  }

  /** The new entry joins its own airdrop's pool and available set, and no other. */
  lemma AddEntrySets(table: map<int, AirdropCardRow>, newId: int, id: int, cardId: int)
    requires newId !in table
    ensures var r := table[newId := NewEntry(id, cardId)];
      && PoolOf(r, Some(id)) == PoolOf(table, Some(id)) + {newId}
      && AvailableOf(r, Some(id)) == AvailableOf(table, Some(id)) + {newId}
      && (forall a :: a != Some(id) ==> PoolOf(r, a) == PoolOf(table, a) && AvailableOf(r, a) == AvailableOf(table, a))
  {
    var r := table[newId := NewEntry(id, cardId)];
    assert PoolOf(r, Some(id)) == PoolOf(table, Some(id)) + {newId};
    forall a | a != Some(id)
      ensures PoolOf(r, a) == PoolOf(table, a) && AvailableOf(r, a) == AvailableOf(table, a)
    {
      assert newId !in PoolOf(r, a);
    }
  }

  /**
   * What `AirdropCard.save` does to the entry table: a new entry is inserted
   * under the next id, a stored one only has its reservation columns written.
   */
  function SavedEntries(table: map<int, AirdropCardRow>, counter: int, id: Option<int>, row: AirdropCardRow)
    : (r: map<int, AirdropCardRow>)
    ensures id.None? ==> r == table[counter + 1 := row]
    ensures id.Some? ==> r == StoreReservation(table, id.value, row)
  {
    if id.None? then table[counter + 1 := row] else StoreReservation(table, id.value, row)
  }

  /** The entry's id after `save`: the new row's id when it had none. */
  function SavedId(id: Option<int>, counter: int): (r: Option<int>)
    ensures r.Some? && (id.Some? ==> r == id)
  {
    if id.None? then Some(counter + 1) else id
  }

  /** The AUTOINCREMENT counter after `save`. */
  function SavedSeq(id: Option<int>, counter: int): (r: int)
    ensures r == counter || (id.None? && r == counter + 1)
  {
    if id.None? then counter + 1 else counter
  }

  // ----- airdrops -----

  /**
   * `UPDATE airdrops SET name, description, message_id, chat_id, is_active`:
   * the creator and the creation time stay as stored.
   */
  function UpdatedAirdrop(stored: AirdropRow, obj: AirdropRow): (r: AirdropRow)
    ensures r.creatorId == stored.creatorId && r.createdAt == stored.createdAt
    ensures r.(creatorId := obj.creatorId, createdAt := obj.createdAt) == obj
  {
    obj.(creatorId := stored.creatorId, createdAt := stored.createdAt)
  }

  /**
   * What `Airdrop.save` does to the airdrop table: a new airdrop is inserted
   * under the next id; a stored one takes the object's editable fields; an
   * id with no stored row changes nothing.
   */
  function SavedAirdrops(table: map<int, AirdropRow>, counter: int, id: Option<int>, row: AirdropRow)
    : (r: map<int, AirdropRow>)
    ensures id.None? ==> r == table[counter + 1 := row]
    ensures id.Some? ==> r.Keys == table.Keys
  {
    if id.None? then table[counter + 1 := row]
    else if id.value in table then table[id.value := UpdatedAirdrop(table[id.value], row)]
    else table
  }

  /** Saving a stored airdrop rewrites its own row and no other. */
  lemma SavedAirdropsTouchesOne(table: map<int, AirdropRow>, counter: int, id: int, row: AirdropRow)
    ensures forall k :: k in table && k != id ==> SavedAirdrops(table, counter, Some(id), row)[k] == table[k]
    ensures id in table ==> SavedAirdrops(table, counter, Some(id), row)[id] == UpdatedAirdrop(table[id], row)
    ensures id in table ==> SavedAirdrops(table, counter, Some(id), row)[id].isActive == row.isActive
  {
  }

  class Airdrop {
    var name: string
    var description: string
    var creatorId: int
    var messageId: Option<int>
    var chatId: Option<int>
    var isActive: bool
    var createdAt: int
    var id: Option<int>

    function Row(): AirdropRow
      reads this
    {
      AirdropRow(name, Some(description), creatorId, messageId, chatId, isActive, createdAt)
    }

    /** `Airdrop.__init__`: a new airdrop is active and not yet posted anywhere. */
    constructor (now: int, name: string, creatorId: int, description: Option<string> := None)
      ensures Row() == AirdropRow(name, Some(OrElse(description, "")), creatorId, None, None, true, now)
      ensures id == None
    {
      this.name := name;
      this.description := OrElse(description, "");
      this.creatorId := creatorId;
      messageId := None;
      chatId := None;
      isActive := true;
      createdAt := now;
      id := None;
    }

    /**
     * `Airdrop.save`: inserted under a fresh id when it has none, otherwise
     * its stored row, if any, takes the object's editable fields.
     */
    method Save(db: Db)
      requires db.Valid() && db.Ready()
      modifies this, db
      ensures db.Valid() && Row() == old(Row())
      ensures db.All() == old(db.All()).(airdrops := db.airdrops, airdropSeq := db.airdropSeq)
      ensures id == SavedId(old(id), old(db.airdropSeq))
      ensures db.airdropSeq == SavedSeq(old(id), old(db.airdropSeq))
      ensures db.airdrops == SavedAirdrops(old(db.airdrops), old(db.airdropSeq), old(id), Row())
    {
      if id.None? {
        var newId := db.airdropSeq + 1;
        IdsWithinInsert(db.airdrops, db.airdropSeq, Row());
        db.airdrops, db.airdropSeq := db.airdrops[newId := Row()], newId;
        id := Some(newId);
      } else if id.value in db.airdrops {
        db.airdrops := db.airdrops[id.value := UpdatedAirdrop(db.airdrops[id.value], Row())];
        assert db.airdrops.Keys == old(db.airdrops).Keys;
      }
    }

    /** `Airdrop.deactivate`: the airdrop becomes inactive and is saved. */
    method Deactivate(db: Db)
      requires db.Valid() && db.Ready()
      modifies this, db
      ensures db.Valid() && Row() == old(Row()).(isActive := false)
      ensures db.All() == old(db.All()).(airdrops := db.airdrops, airdropSeq := db.airdropSeq)
      ensures id == SavedId(old(id), old(db.airdropSeq))
      ensures db.airdropSeq == SavedSeq(old(id), old(db.airdropSeq))
      ensures db.airdrops == SavedAirdrops(old(db.airdrops), old(db.airdropSeq), old(id), Row())
      ensures old(id).None? || old(id).value in old(db.airdrops) ==> id.value in db.airdrops && !db.airdrops[id.value].isActive
    {
      isActive := false;
      Save(db);
      if old(id).Some? {
        SavedAirdropsTouchesOne(old(db.airdrops), old(db.airdropSeq), id.value, Row());
      }
    }

    /** `Airdrop.get_total_cards`: how many cards the airdrop holds, reserved or not. */
    method GetTotalCards(db: Db) returns (n: nat)
      ensures n == |PoolOf(db.airdropCards, id)|
    {
      n := |PoolOf(db.airdropCards, id)|;
    }

    /** `Airdrop.get_available_cards`: how many of them are still unreserved. */
    method GetAvailableCards(db: Db) returns (n: nat)
      ensures n == |AvailableOf(db.airdropCards, id)|
      ensures n <= |PoolOf(db.airdropCards, id)|
    {
      n := |AvailableOf(db.airdropCards, id)|;
      AvailableAtMostTotal(db.airdropCards, id);
    }

    /**
     * `Airdrop.add_card`: `INSERT OR IGNORE` of an unreserved entry. Without
     * an id the NOT NULL constraint on `airdrop_id` fails and the insert is
     * ignored; no other constraint can fail.
     */
    method AddCard(db: Db, cardId: int)
      requires db.Valid() && db.Ready()
      modifies db
      ensures db.Valid()
      ensures id.None? ==> db.All() == old(db.All())
      ensures id.Some? ==>
                db.All() == old(db.All()).(airdropCards := old(db.airdropCards)[old(db.airdropCardSeq) + 1 := NewEntry(id.value, cardId)],
                                           airdropCardSeq := old(db.airdropCardSeq) + 1)
      ensures id.Some? ==> |PoolOf(db.airdropCards, id)| == |PoolOf(old(db.airdropCards), id)| + 1
      ensures id.Some? ==> |AvailableOf(db.airdropCards, id)| == |AvailableOf(old(db.airdropCards), id)| + 1
    {
      if id.Some? {
        var newId := db.airdropCardSeq + 1;
        AddEntryCounts(db.airdropCards, newId, id.value, cardId);
        IdsWithinInsert(db.airdropCards, db.airdropCardSeq, NewEntry(id.value, cardId));
        db.airdropCards, db.airdropCardSeq := db.airdropCards[newId := NewEntry(id.value, cardId)], newId;
      }
    }
  }

  // ----- pool entries -----

  class AirdropCard {
    var airdropId: int
    var cardId: int
    var isReserved: bool
    var reservedBy: Option<int>
    var reservedAt: Option<int>
    var id: Option<int>

    function Row(): AirdropCardRow
      reads this
    {
      AirdropCardRow(airdropId, cardId, isReserved, reservedBy, reservedAt)
    }

    /** `AirdropCard.__init__`: a new, unreserved entry. */
    constructor (airdropId: int, cardId: int)
      ensures Row() == NewEntry(airdropId, cardId) && id == None
    {
      this.airdropId := airdropId;
      this.cardId := cardId;
      isReserved := false;
      reservedBy := None;
      reservedAt := None;
      id := None;
    }

    /** `AirdropCard.from_row` for the entry stored under `entryId`. */
    constructor FromRow(row: AirdropCardRow, entryId: int)
      ensures Row() == row && id == Some(entryId)
    {
      airdropId := row.airdropId;
      cardId := row.cardId;
      isReserved := row.isReserved;
      reservedBy := row.reservedBy;
      reservedAt := row.reservedAt;
      id := Some(entryId);
    }

    /**
     * `AirdropCard.save`: inserted under a fresh id when it has none,
     * otherwise only the reservation columns of its stored row are written.
     */
    method Save(db: Db)
      requires db.Valid() && db.Ready()
      modifies this, db
      ensures db.Valid() && Row() == old(Row())
      ensures db.All() == old(db.All()).(airdropCards := db.airdropCards, airdropCardSeq := db.airdropCardSeq)
      ensures id == SavedId(old(id), old(db.airdropCardSeq))
      ensures db.airdropCardSeq == SavedSeq(old(id), old(db.airdropCardSeq))
      ensures db.airdropCards == SavedEntries(old(db.airdropCards), old(db.airdropCardSeq), old(id), Row())
    {
      if id.None? {
        var newId := db.airdropCardSeq + 1;
        IdsWithinInsert(db.airdropCards, db.airdropCardSeq, Row());
        db.airdropCards, db.airdropCardSeq := db.airdropCards[newId := Row()], newId;
        id := Some(newId);
      } else {
        IdsWithinUpdate(db.airdropCards, StoreReservation(db.airdropCards, id.value, Row()), db.airdropCardSeq);
        db.airdropCards := StoreReservation(db.airdropCards, id.value, Row());
      }
    }

    /**
     * `AirdropCard.get_random_available_card`: some unreserved entry of the
     * airdrop (`ORDER BY RANDOM() LIMIT 1`), or none when all are claimed.
     */
    static method GetRandomAvailableCard(db: Db, airdropId: int) returns (c: AirdropCard?)
      ensures c == null <==> AvailableOf(db.airdropCards, Some(airdropId)) == {}
      ensures c != null ==> fresh(c) && c.id.Some? && c.id.value in AvailableOf(db.airdropCards, Some(airdropId))
      ensures c != null ==> c.Row() == db.airdropCards[c.id.value]
    {
      var available := AvailableOf(db.airdropCards, Some(airdropId));
      if available == {} {
        return null;
      }
      ghost var some := Member(available);
      var k :| k in available;
      c := new AirdropCard.FromRow(db.airdropCards[k], k);
    }

    /**
     * `AirdropCard.reserve_card`: the entry is marked reserved by `userId` at
     * `now`, the card, if it still exists, passes to the user, and the entry
     * is saved. The card object is returned, or none when the card is gone.
     */
    method ReserveCard(db: Db, userId: int, now: int) returns (card: Card?)
      requires db.Valid() && db.Ready()
      modifies this, db
      ensures db.Valid()
      ensures isReserved && reservedBy == Some(userId) && reservedAt == Some(now)
      ensures airdropId == old(airdropId) && cardId == old(cardId)
      ensures card == null <==> cardId !in old(db.cards)
      ensures card != null ==> card.Row() == old(db.cards)[cardId].(ownerId := userId) && card.id == Some(cardId)
      ensures db.All() == old(db.All()).(cards := NewOwner(old(db.cards), cardId, userId),
                                         airdropCards := db.airdropCards, airdropCardSeq := db.airdropCardSeq)
      ensures id == SavedId(old(id), old(db.airdropCardSeq))
      ensures db.airdropCardSeq == SavedSeq(old(id), old(db.airdropCardSeq))
      ensures db.airdropCards == SavedEntries(old(db.airdropCards), old(db.airdropCardSeq), old(id), Row())
    {
      isReserved := true;
      reservedBy := Some(userId);
      reservedAt := Some(now);
      card := TransferCard(db, cardId, userId);
      Save(db);
    }
  }

  /** `UPDATE cards SET owner_id = ? …` for the card `cardId`, when it exists. */
  function NewOwner(cards: map<int, CardRow>, cardId: int, userId: int): (r: map<int, CardRow>)
    ensures r.Keys == cards.Keys
    ensures forall k :: k in r ==> r[k] == if k == cardId then cards[k].(ownerId := userId) else cards[k]
  {
    if cardId in cards then cards[cardId := cards[cardId].(ownerId := userId)] else cards
  }

  /** The ownership transfer inside `reserve_card`: `Card.get_by_id`, then `save` with the new owner. */
  method TransferCard(db: Db, cardId: int, userId: int) returns (card: Card?)
    requires db.Valid() && db.Ready()
    modifies db
    ensures db.Valid() && db.Ready()
    ensures card == null <==> cardId !in old(db.cards)
    ensures card != null ==> fresh(card) && card.Row() == old(db.cards)[cardId].(ownerId := userId) && card.id == Some(cardId)
    ensures db.cards == NewOwner(old(db.cards), cardId, userId)
    ensures db.All() == old(db.All()).(cards := db.cards)
  {
    card := Card.GetById(db, cardId);
    if card != null {
      card.ownerId := userId;
      card.Save(db);
    }
  }

  /**
   * A claim as the service makes it: pick a random available entry of the
   * airdrop and reserve it. Either nothing was left and nothing changes, or
   * exactly one entry of the airdrop went from available to reserved by the
   * user.
   */
  method Claim(db: Db, airdropId: int, userId: int, now: int) returns (entry: AirdropCard?)
    requires db.Valid() && db.Ready()
    modifies db
    ensures db.Valid()
    ensures entry == null <==> AvailableOf(old(db.airdropCards), Some(airdropId)) == {}
    ensures entry == null ==> db.All() == old(db.All())
    ensures entry != null ==>
              && entry.id.Some?
              && AvailableOf(db.airdropCards, Some(airdropId)) == AvailableOf(old(db.airdropCards), Some(airdropId)) - {entry.id.value}
              && entry.id.value in AvailableOf(old(db.airdropCards), Some(airdropId))
              && |AvailableOf(db.airdropCards, Some(airdropId))| == |AvailableOf(old(db.airdropCards), Some(airdropId))| - 1
              && (forall a :: PoolOf(db.airdropCards, a) == PoolOf(old(db.airdropCards), a))
              && db.airdropCards[entry.id.value].reservedBy == Some(userId)
    ensures entry != null ==>
              && entry.id.value in old(db.airdropCards)
              && db.airdropCards == StoreReservation(old(db.airdropCards), entry.id.value,
                                                     old(db.airdropCards)[entry.id.value].(isReserved := true, reservedBy := Some(userId), reservedAt := Some(now)))
              && db.cards == NewOwner(old(db.cards), old(db.airdropCards)[entry.id.value].cardId, userId)
              && db.All() == old(db.All()).(cards := db.cards, airdropCards := db.airdropCards)
  {
    entry := AirdropCard.GetRandomAvailableCard(db, airdropId);
    if entry == null {
      return;
    }
    ghost var k := entry.id.value;
    ReserveLowersAvailable(db.airdropCards, k, userId, now);
    var card := entry.ReserveCard(db, userId, now);
  }
}

=== FILE: database.dfy ===
/**
 * The store itself: every table as a map from row id to row, the column set
 * of every table, the recorded schema versions, and the AUTOINCREMENT
 * counters (`sqlite_sequence`) of the tables the entity methods insert into.
 * `init_db` and its steps are methods that change these fields in place; each
 * is proved equal to the corresponding value-level step of `Migrations`.
 */
module Database {
  import opened Wrappers
  import opened Strings
  import opened Rows
  import opened Migrations
  import opened MigrationFacts
  import opened Sets

  /** What the migrator never touches: the other tables and the id counters. */
  datatype Others = Others(
    users: map<int, UserRow>,
    tradeLinks: map<int, TradeLinkRow>,
    collectionLinks: map<int, CollectionLinkRow>,
    airdrops: map<int, AirdropRow>,
    airdropCards: map<int, AirdropCardRow>,
    userSeq: int,
    cardSeq: int,
    airdropSeq: int,
    airdropCardSeq: int)

  /** The whole store, for stating what an operation leaves alone. */
  datatype Store = Store(
    schema: Schema,
    versions: set<string>,
    users: map<int, UserRow>,
    cards: map<int, CardRow>,
    collections: map<int, CollectionRow>,
    tradeLinks: map<int, TradeLinkRow>,
    collectionLinks: map<int, CollectionLinkRow>,
    airdrops: map<int, AirdropRow>,
    airdropCards: map<int, AirdropCardRow>,
    userSeq: int,
    cardSeq: int,
    airdropSeq: int,
    airdropCardSeq: int)

  /** Every AUTOINCREMENT id of a table is positive and at most its counter. */
  ghost predicate IdsWithin<T>(table: map<int, T>, counter: int)
  {
    forall id :: id in table ==> 0 < id <= counter
  }

  /** An insert under the next AUTOINCREMENT id keeps the table's ids within its counter. */
  lemma IdsWithinInsert<T>(table: map<int, T>, counter: int, row: T)
    requires 0 <= counter && IdsWithin(table, counter)
    ensures IdsWithin(table[counter + 1 := row], counter + 1)
  {
  }

  /** An update in place keeps the table's ids. */
  lemma IdsWithinUpdate<T>(table: map<int, T>, table': map<int, T>, counter: int)
    requires IdsWithin(table, counter) && table'.Keys == table.Keys
    ensures IdsWithin(table', counter)
  {
  }

  /** `users.telegram_id` is UNIQUE. */
  ghost predicate UniqueTelegramIds(users: map<int, UserRow>)
  {
    forall i, j :: i in users && j in users && users[i].telegramId == users[j].telegramId ==> i == j
  }

  class Db {
    var schema: Schema
    var versions: set<string>
    var users: map<int, UserRow>
    var cards: map<int, CardRow>
    var collections: map<int, CollectionRow>
    var tradeLinks: map<int, TradeLinkRow>
    var collectionLinks: map<int, CollectionLinkRow>
    var airdrops: map<int, AirdropRow>
    var airdropCards: map<int, AirdropCardRow>
    // The largest id each AUTOINCREMENT table has handed out.
    var userSeq: int
    var cardSeq: int
    var airdropSeq: int
    var airdropCardSeq: int

    /** What `init_db` reads and writes. */
    function Snap(): Snapshot
      reads this
    {
      Snapshot(schema, versions, cards, collections)
    }

    function Rest(): Others
      reads this
    {
      Others(users, tradeLinks, collectionLinks, airdrops, airdropCards, userSeq, cardSeq, airdropSeq, airdropCardSeq)
    }

    function All(): Store
      reads this
    {
      Store(schema, versions, users, cards, collections, tradeLinks, collectionLinks, airdrops, airdropCards,
            userSeq, cardSeq, airdropSeq, airdropCardSeq)
    }

    /**
     * The store's own constraints: AUTOINCREMENT ids are positive and never
     * above the table's counter, and `users.telegram_id` is UNIQUE.
     */
    ghost predicate Valid()
      reads this
    {
      && 0 <= userSeq && 0 <= cardSeq && 0 <= airdropSeq && 0 <= airdropCardSeq
      && IdsWithin(users, userSeq) && IdsWithin(cards, cardSeq)
      && IdsWithin(airdrops, airdropSeq) && IdsWithin(airdropCards, airdropCardSeq)
      && UniqueTelegramIds(users)
    }

    /** Every table and column the entity methods use exists. */
    predicate Ready()
      reads this
    {
      Complete(schema)
    }

    /** A new, empty database file. */
    constructor ()
      ensures Snap() == Empty && Valid()
      ensures users == map[] && tradeLinks == map[] && collectionLinks == map[]
      ensures airdrops == map[] && airdropCards == map[]
    {
      schema := map[];
      versions := {};
      users := map[];
      cards := map[];
      collections := map[];
      tradeLinks := map[];
      collectionLinks := map[];
      airdrops := map[];
      airdropCards := map[];
      userSeq := 0;
      cardSeq := 0;
      airdropSeq := 0;
      airdropCardSeq := 0;
    }

    // ----- primitive statements -----

    /** `CREATE TABLE IF NOT EXISTS` */
    method CreateTable(table: Table, columns: set<Column>)
      modifies this
      ensures Snap() == CreateIfAbsent(old(Snap()), table, columns)
      ensures Rest() == old(Rest())
    {
      if table !in schema {
        schema := schema[table := columns];
      }
    }

    /** `ALTER TABLE … ADD COLUMN`: existing rows take the column's default. */
    method AlterAddColumn(table: Table, column: Column)
      requires table in schema
      modifies this
      ensures Snap() == AddColumn(old(Snap()), table, column)
      ensures Rest() == old(Rest())
    {
      var s := AddColumn(Snap(), table, column);
      schema, cards, collections := s.schema, s.cards, s.collections;
    }

    /**
     * `if 'column' not in columns: ALTER TABLE table ADD COLUMN column`, where
     * `columns` is what `PRAGMA table_info(table)` listed when the step began.
     */
    method AddUnlessListed(columns: set<Column>, table: Table, column: Column)
      requires table in schema && (column in columns <==> column in schema[table])
      modifies this
      ensures Snap() == EnsureColumn(old(Snap()), table, column)
      ensures Rest() == old(Rest())
    {
      if column !in columns {
        AlterAddColumn(table, column);
      }
    }

    /** The rollback of a failed transaction. */
    method Restore(s: Snapshot)
      modifies this
      ensures Snap() == s && Rest() == old(Rest())
    {
      schema := s.schema;
      versions := s.versions;
      cards := s.cards;
      collections := s.collections;
    }

    // ----- the steps -----
    // A step that alters a missing table fails: `PRAGMA table_info` then
    // lists no column, so the first `ALTER TABLE` runs and raises.

    method MigrateV1_0_0()
      modifies this
      ensures Snap() == MigrateToV1_0_0(old(Snap()))
      ensures Rest() == old(Rest())
    {
      CreateTable(Users, UsersColumns);
      CreateTable(Collections, CollectionsColumns);
      CreateTable(Cards, CardsColumns);
      CreateTable(TradeLinks, TradeLinksColumns);
    }

    method MigrateV1_1_0() returns (ok: bool)
      modifies this
      ensures ok <==> MigrateToV1_1_0(old(Snap())).Some?
      ensures ok ==> Snap() == MigrateToV1_1_0(old(Snap())).value
      ensures Rest() == old(Rest())
    {
      CreateTable(CollectionLinks, CollectionLinksColumns);
      if Collections !in schema {
        return false;
      }
      var columns := schema[Collections];
      AddUnlessListed(columns, Collections, Description);
      AddUnlessListed(columns, Collections, IsPublished);
      return true;
    }

    method MigrateV1_2_0() returns (ok: bool)
      modifies this
      ensures ok <==> MigrateToV1_2_0(old(Snap())).Some?
      ensures ok ==> Snap() == MigrateToV1_2_0(old(Snap())).value
      ensures Rest() == old(Rest())
    {
      if Cards !in schema {
        return false;
      }
      var columns := schema[Cards];
      AddUnlessListed(columns, Cards, AccessKey);
      return true;
    }

    method MigrateV1_3_0() returns (ok: bool)
      modifies this
      ensures ok <==> MigrateToV1_3_0(old(Snap())).Some?
      ensures ok ==> Snap() == MigrateToV1_3_0(old(Snap())).value
      ensures Rest() == old(Rest())
    {
      if Collections !in schema {
        return false;
      }
      var columns := schema[Collections];
      AddUnlessListed(columns, Collections, ReservationStatus);
      AddUnlessListed(columns, Collections, ReservedBy);
      AddUnlessListed(columns, Collections, ReservedAt);
      return true;
    }

    /**
     * `SELECT id FROM collections WHERE link_id IS NULL OR link_id = ''`,
     * then one `UPDATE` per selected row giving it the first 16 digits of a
     * fresh uuid.
     */
    method BackfillCollectionLinks(uuid: int -> UuidHex)
      modifies this
      ensures collections == BackfillLinks(old(collections), uuid)
      ensures schema == old(schema) && versions == old(versions) && cards == old(cards)
      ensures Rest() == old(Rest())
    {
      ghost var c0 := collections;
      ghost var target := BackfillLinks(c0, uuid);
      var pending := set id | id in collections && NeedsLink(collections[id]);
      while pending != {}
        invariant pending <= c0.Keys
        invariant collections.Keys == c0.Keys
        invariant forall id :: id in c0 ==> collections[id] == if id in pending then c0[id] else target[id]
        invariant forall id :: id in pending ==> NeedsLink(c0[id])
        modifies this`collections
        decreases pending
      {
        ghost var some := Member(pending);
        var c :| c in pending;
        collections := collections[c := collections[c].(linkId := Some(LinkIdOf(uuid(c))))];
        pending := pending - {c};
      }
      assert collections.Keys == target.Keys;
      forall id | id in collections
        ensures collections[id] == target[id]
      {
      }
    }

    method MigrateV1_4_0(uuid: int -> UuidHex) returns (ok: bool)
      modifies this
      ensures ok <==> MigrateToV1_4_0(old(Snap()), uuid).Some?
      ensures ok ==> Snap() == MigrateToV1_4_0(old(Snap()), uuid).value
      ensures Rest() == old(Rest())
    {
      if Collections !in schema {
        return false;
      }
      var columns := schema[Collections];
      AddUnlessListed(columns, Collections, LinkId);
      // The unique index on `link_id` is not modelled.
      BackfillCollectionLinks(uuid);
      return true;
    }

    method MigrateV1_5_0() returns (ok: bool)
      modifies this
      ensures ok <==> MigrateToV1_5_0(old(Snap())).Some?
      ensures ok ==> Snap() == MigrateToV1_5_0(old(Snap())).value
      ensures Rest() == old(Rest())
    {
      if Cards !in schema {
        return false;
      }
      var columns := schema[Cards];
      AddUnlessListed(columns, Cards, StarPrice);
      cards := DefaultStarPrices(cards);
      return true;
    }

    method MigrateV1_6_0()
      modifies this
      ensures Snap() == MigrateToV1_6_0(old(Snap()))
      ensures Rest() == old(Rest())
    {
      CreateTable(Airdrops, AirdropsColumns);
      CreateTable(AirdropCards, AirdropCardsColumns);
    }

    method MigrateV1_7_0() returns (ok: bool)
      modifies this
      ensures ok <==> MigrateToV1_7_0(old(Snap())).Some?
      ensures ok ==> Snap() == MigrateToV1_7_0(old(Snap())).value
      ensures Rest() == old(Rest())
    {
      if Airdrops !in schema {
        return false;
      }
      var columns := schema[Airdrops];
      AddUnlessListed(columns, Airdrops, CoverImage);
      return true;
    }

    /** `SELECT version FROM schema_migrations ORDER BY version DESC LIMIT 1`, or "0.0.0". */
    method LatestVersion() returns (v: string)
      ensures IsLatest(v, versions)
    {
      if versions == {} {
        return NoVersion;
      }
      LatestExists(versions);
      ghost var m :| IsLatest(m, versions);
      assert m in versions && forall w :: w in versions ==> !Less(m, w);
      v :| v in versions && forall w :: w in versions ==> !Less(v, w);
    }

    /**
     * `if current_version < v: migrate_to_v(cursor)` for the step `v` at
     * index `k`: afterwards the remaining pending run continues from the new
     * state, or, when the step failed, the whole run fails.
     */
    method RunIfPending(current: string, k: nat, uuid: int -> UuidHex) returns (ok: bool)
      requires k < |Steps|
      modifies this
      ensures ok ==> RunSteps(PendingFrom(current, k), old(Snap()), uuid) ==
                     RunSteps(PendingFrom(current, k + 1), Snap(), uuid)
      ensures !ok ==> RunSteps(PendingFrom(current, k), old(Snap()), uuid).None?
      ensures Rest() == old(Rest())
    {
      ghost var pre := Snap();
      ok := true;
      if Less(current, Steps[k]) {
        if k == 0 {
          MigrateV1_0_0();
        } else if k == 1 {
          ok := MigrateV1_1_0();
        } else if k == 2 {
          ok := MigrateV1_2_0();
        } else if k == 3 {
          ok := MigrateV1_3_0();
        } else if k == 4 {
          ok := MigrateV1_4_0(uuid);
        } else if k == 5 {
          ok := MigrateV1_5_0();
        } else if k == 6 {
          MigrateV1_6_0();
        } else {
          ok := MigrateV1_7_0();
        }
      }
      if ok {
        Advance(current, k, pre, Snap(), uuid);
      } else {
        Fails(current, k, pre, uuid);
      }
    }

    /**
     * The eight guarded steps of `init_db`, in order: `if current_version <
     * "1.0.0": …` through `if current_version < "1.7.0": …`. Stops at the
     * first step that fails.
     */
    method RunPending(current: string, uuid: int -> UuidHex) returns (ok: bool)
      modifies this
      ensures ok <==> RunSteps(PendingFrom(current, 0), old(Snap()), uuid).Some?
      ensures ok ==> Snap() == RunSteps(PendingFrom(current, 0), old(Snap()), uuid).value
      ensures Rest() == old(Rest())
    {
      var k := 0;
      ok := RunTwoSteps(current, k, uuid);
      if !ok { return; }
      k := k + 2;
      ok := RunTwoSteps(current, k, uuid);
      if !ok { return; }
      k := k + 2;
      ok := RunTwoSteps(current, k, uuid);
      if !ok { return; }
      k := k + 2;
      ok := RunTwoSteps(current, k, uuid);
      if !ok { return; }
      k := k + 2;
      assert PendingFrom(current, k) == [];
    }

    /** Two consecutive guarded blocks, for steps `k` and `k + 1`. */
    method RunTwoSteps(current: string, k: nat, uuid: int -> UuidHex) returns (ok: bool)
      requires k + 2 <= |Steps|
      modifies this
      ensures ok ==> RunSteps(PendingFrom(current, k), old(Snap()), uuid) == RunSteps(PendingFrom(current, k + 2), Snap(), uuid)
      ensures !ok ==> RunSteps(PendingFrom(current, k), old(Snap()), uuid).None?
      ensures Rest() == old(Rest())
    {
      ghost var before := Snap();
      ok := RunIfPending(current, k, uuid);
      if !ok { return; }
      ghost var between := Snap();
      ok := RunIfPending(current, k + 1, uuid);
      assert ok ==> RunSteps(PendingFrom(current, k), before, uuid) == RunSteps(PendingFrom(current, k + 1), between, uuid);
    }

    /**
     * `init_db`: on success the store is exactly what `Migrate` describes;
     * when a step fails the model restores the store as it was (SQLite keeps
     * the schema statements run before the first data change, which this
     * model does not capture). The store's
     * own constraints survive, since no row is added or removed. On a new
     * store it cannot fail and leaves every table the entity methods use.
     */
    method InitDb(uuid: int -> UuidHex) returns (ok: bool)
      requires Valid()
      modifies this
      ensures Valid()
      ensures ok <==> Migrate(old(Snap()), uuid).Some?
      ensures ok ==> Snap() == Migrate(old(Snap()), uuid).value
      ensures !ok ==> Snap() == old(Snap())
      ensures Rest() == old(Rest())
      ensures old(versions) == {} && Created(old(schema)) ==> ok && Ready()
    {
      ghost var before := Snap();
      ok := MigrateOrRollBack(uuid);
      IdsWithinUpdate(old(cards), cards, cardSeq);
      if before.versions == {} && Created(before.schema) {
        MigrateCompletes(before, uuid);
      }
    }

    /** The body of `init_db`: the version table, the pending steps, the record of "1.7.0". */
    method MigrateOrRollBack(uuid: int -> UuidHex) returns (ok: bool)
      modifies this
      ensures ok <==> Migrate(old(Snap()), uuid).Some?
      ensures ok ==> Snap() == Migrate(old(Snap()), uuid).value
      ensures !ok ==> Snap() == old(Snap())
      ensures Rest() == old(Rest())
    {
      var backup := Snap();
      CreateTable(SchemaMigrations, MigrationsColumns);
      var current := LatestVersion();
      MigrateFromLatest(backup, current, uuid);
      ok := RunPending(current, uuid);
      if !ok {
        Restore(backup);
        return;
      }
      versions := versions + {CurrentVersion};
    }
  }
}

=== FILE: entities.dfy ===
/**
 * The entity objects of the store. Each object carries its own copy of a
 * row's fields plus an `id` that is `None` until the row is inserted; its
 * methods assign those fields and write the store's tables. Every table write
 * is stated through a value-level function of the table, proved separately.
 */
module Entities {
  import opened Wrappers
  import opened Rows
  import opened Migrations
  import opened Database
  import opened Pricing
  import opened Sets

  // ----- users -----

  /** The user rows whose Telegram id is `tid`. */
  function UsersWith(users: map<int, UserRow>, tid: int): set<int>
  {
    set k | k in users && users[k].telegramId == tid
  }

  /**
   * `COALESCE((SELECT created_at FROM users WHERE telegram_id = ?), ?)`: the
   * stored creation time of the user, or `default` when there is none.
   */
  ghost function CreatedAtFor(users: map<int, UserRow>, tid: int, default: int): (t: int)
    ensures UsersWith(users, tid) == {} ==> t == default
    ensures UsersWith(users, tid) != {} ==> exists k :: k in UsersWith(users, tid) && t == users[k].createdAt
  {
    if UsersWith(users, tid) == {} then default
    else
      HasUser(users, tid);
      var k :| k in UsersWith(users, tid); users[k].createdAt
  }

  lemma HasUser(users: map<int, UserRow>, tid: int)
    requires UsersWith(users, tid) != {}
    ensures exists k :: k in UsersWith(users, tid)
  {
    var k := Member(UsersWith(users, tid));
  }

  /** The user rows whose Telegram id is not `tid`. */
  function WithoutTelegramId(users: map<int, UserRow>, tid: int): (r: map<int, UserRow>)
    ensures r.Keys == users.Keys - UsersWith(users, tid)
    ensures forall k :: k in r ==> r[k] == users[k]
  {
    map k | k in users && users[k].telegramId != tid :: users[k]
  }

  /** The COALESCE sub-query, read from a store whose Telegram ids are unique. */
  method StoredCreatedAt(users: map<int, UserRow>, tid: int, default: int) returns (t: int)
    requires UniqueTelegramIds(users)
    ensures t == CreatedAtFor(users, tid, default)
  {
    if k :| k in users && users[k].telegramId == tid {
      assert UsersWith(users, tid) != {} by { assert k in UsersWith(users, tid); }
      ghost var j :| j in UsersWith(users, tid) && CreatedAtFor(users, tid, default) == users[j].createdAt;
      assert j == k;
      t := users[k].createdAt;
    } else {
      assert forall x :: x !in UsersWith(users, tid);
      assert UsersWith(users, tid) == {};
      t := default;
    }
  }

  /**
   * `INSERT OR REPLACE INTO users … VALUES (…, COALESCE(…))`: the row with
   * the same Telegram id, if any, is deleted and the new row is inserted
   * under the fresh id `newId`, keeping the earlier creation time.
   */
  ghost function UpsertUser(users: map<int, UserRow>, newId: int, u: UserRow): (r: map<int, UserRow>)
    ensures newId in r && r[newId] == u.(createdAt := CreatedAtFor(users, u.telegramId, u.createdAt))
    ensures forall k :: k in r && k != newId ==> k in users && r[k] == users[k] && users[k].telegramId != u.telegramId
    ensures forall k :: k in users && users[k].telegramId != u.telegramId ==> k in r
  {
    WithoutTelegramId(users, u.telegramId)[newId := u.(createdAt := CreatedAtFor(users, u.telegramId, u.createdAt))]
  }

  /**
   * After the upsert under the next id, exactly one row has the Telegram id,
   * the Telegram ids stay unique and every id stays within the counter.
   */
  lemma UpsertUserUnique(users: map<int, UserRow>, counter: int, u: UserRow)
    requires UniqueTelegramIds(users) && IdsWithin(users, counter) && 0 <= counter
    ensures UsersWith(UpsertUser(users, counter + 1, u), u.telegramId) == {counter + 1}
    ensures UniqueTelegramIds(UpsertUser(users, counter + 1, u))
    ensures IdsWithin(UpsertUser(users, counter + 1, u), counter + 1)
  {
    var r := UpsertUser(users, counter + 1, u);
    forall k | k in UsersWith(r, u.telegramId)
      ensures k == counter + 1
    {
    }
  }

  /** A user saved again keeps the creation time of the first save. */
  lemma UpsertUserKeepsCreatedAt(users: map<int, UserRow>, newId: int, u: UserRow, old_: int)
    requires UniqueTelegramIds(users)
    requires old_ in users && users[old_].telegramId == u.telegramId
    ensures UpsertUser(users, newId, u)[newId].createdAt == users[old_].createdAt
    ensures old_ != newId ==> old_ !in UpsertUser(users, newId, u)
  {
    assert old_ in UsersWith(users, u.telegramId);
  }

  class User {
    var telegramId: int
    var username: Option<string>
    var firstName: Option<string>
    var isAdmin: bool
    var createdAt: int
    var id: Option<int>

    constructor (now: int, telegramId: int, username: Option<string> := None, firstName: Option<string> := None,
                 isAdmin: bool := false)
      ensures this.telegramId == telegramId && this.username == username && this.firstName == firstName
      ensures this.isAdmin == isAdmin && createdAt == now && id == None
    {
      this.telegramId := telegramId;
      this.username := username;
      this.firstName := firstName;
      this.isAdmin := isAdmin;
      createdAt := now;
      id := None;
    }

    function Row(): UserRow
      reads this
    {
      UserRow(telegramId, username, firstName, isAdmin, createdAt)
    }

    /**
     * `User.save`: an upsert keyed by the Telegram id. The row always gets a
     * fresh id, but the object's `id` is only set when it had none, so an
     * object saved twice keeps the id of a row that no longer exists.
     */
    method Save(db: Db)
      requires db.Valid() && db.Ready()
      modifies this, db
      ensures db.Valid()
      ensures db.All() == old(db.All()).(users := UpsertUser(old(db.users), old(db.userSeq) + 1, old(Row())),
                                         userSeq := old(db.userSeq) + 1)
      ensures Row() == old(Row())
      ensures id == if old(id).None? then Some(old(db.userSeq) + 1) else old(id)
      ensures old(id).Some? && old(id).value in old(db.users) && old(db.users)[old(id).value].telegramId == telegramId ==>
                id.value !in db.users
    {
      var newId := db.userSeq + 1;
      var created := StoredCreatedAt(db.users, telegramId, createdAt);
      UpsertUserUnique(db.users, db.userSeq, Row());
      db.users, db.userSeq := WithoutTelegramId(db.users, telegramId)[newId := Row().(createdAt := created)], newId;
      if id.None? {
        id := Some(newId);
      }
    }
  }

  // ----- cards -----

  /**
   * `UPDATE cards SET name, owner_id, registration_date, expires,
   * engraving_color, has_background, collection_id, access_key, star_price`:
   * every field comes from the object except the card number and the
   * creation time, which stay as stored.
   */
  function UpdatedCard(stored: CardRow, obj: CardRow): (r: CardRow)
    ensures r.cardNumber == stored.cardNumber && r.createdAt == stored.createdAt
    ensures r.(cardNumber := obj.cardNumber, createdAt := obj.createdAt) == obj
  {
    obj.(cardNumber := stored.cardNumber, createdAt := stored.createdAt)
  }

  class Card {
    var cardNumber: int
    var name: string
    var ownerId: int
    var registrationDate: string
    var expires: string
    var engravingColor: string
    var hasBackground: bool
    var collectionId: Option<int>
    var accessKey: Option<string>
    var starPrice: Option<int>
    var createdAt: int
    var id: Option<int>

    function Row(): CardRow
      reads this
    {
      CardRow(cardNumber, name, ownerId, registrationDate, expires, engravingColor, hasBackground,
              collectionId, createdAt, accessKey, starPrice)
    }

    /**
     * `Card.__init__`, with its defaults; `today` is the current date as
     * `%d.%m.%Y`, used when no registration date is given, and `now` the
     * creation time.
     */
    constructor (today: string, now: int, cardNumber: int, name: string, ownerId: int,
                 expires: string := "Never", engravingColor: string := "white", hasBackground: bool := false,
                 collectionId: Option<int> := None, registrationDate: Option<string> := None,
                 accessKey: Option<string> := None, starPrice: int := 1)
      ensures Row() == CardRow(cardNumber, name, ownerId, OrElse(registrationDate, today), expires, engravingColor,
                               hasBackground, collectionId, now, accessKey, Some(starPrice))
      ensures id == None
    {
      this.cardNumber := cardNumber;
      this.name := name;
      this.ownerId := ownerId;
      this.expires := expires;
      this.engravingColor := engravingColor;
      this.hasBackground := hasBackground;
      this.collectionId := collectionId;
      this.registrationDate := OrElse(registrationDate, today);
      this.accessKey := accessKey;
      this.starPrice := Some(starPrice);
      createdAt := now;
      id := None;
    }

    /** `Card.from_row` for the row stored under `cardId`. */
    constructor FromRow(row: CardRow, columns: set<Column>, cardId: int)
      ensures Row() == CardFromRow(row, columns) && id == Some(cardId)
    {
      var r := CardFromRow(row, columns);
      cardNumber := r.cardNumber;
      name := r.name;
      ownerId := r.ownerId;
      registrationDate := r.registrationDate;
      expires := r.expires;
      engravingColor := r.engravingColor;
      hasBackground := r.hasBackground;
      collectionId := r.collectionId;
      accessKey := r.accessKey;
      starPrice := r.starPrice;
      createdAt := r.createdAt;
      id := Some(cardId);
    }

    /** `Card.get_by_id` */
    static method GetById(db: Db, cardId: int) returns (c: Card?)
      requires Cards in db.schema
      ensures c == null <==> cardId !in db.cards
      ensures c != null ==> fresh(c) && c.id == Some(cardId) && c.Row() == CardFromRow(db.cards[cardId], db.schema[Cards])
      ensures c != null && db.Ready() ==> c.Row() == db.cards[cardId]
    {
      if cardId !in db.cards {
        return null;
      }
      c := new Card.FromRow(db.cards[cardId], db.schema[Cards], cardId);
      if db.Ready() {
        CardFromRowLossless(db.cards[cardId], db.schema[Cards]);
      }
    }

    /**
     * `Card.save`: a card without an id is inserted under a fresh id;
     * otherwise its stored row, if there is one, takes every field but the
     * card number and the creation time.
     */
    method Save(db: Db)
      requires db.Valid() && db.Ready()
      modifies this, db
      ensures db.Valid() && Row() == old(Row())
      ensures old(id).None? ==>
                (id == Some(old(db.cardSeq) + 1) &&
                 db.All() == old(db.All()).(cards := old(db.cards)[old(db.cardSeq) + 1 := Row()], cardSeq := old(db.cardSeq) + 1))
      ensures old(id).Some? ==>
                (id == old(id) &&
                 db.All() == old(db.All()).(cards := if id.value in old(db.cards)
                                                       then old(db.cards)[id.value := UpdatedCard(old(db.cards)[id.value], Row())]
                                                       else old(db.cards)))
    {
      if id.None? {
        var newId := db.cardSeq + 1;
        IdsWithinInsert(db.cards, db.cardSeq, Row());
        db.cards, db.cardSeq := db.cards[newId := Row()], newId;
        id := Some(newId);
      } else if id.value in db.cards {
        db.cards := db.cards[id.value := UpdatedCard(db.cards[id.value], Row())];
      }
    }
  }

  // ----- collections -----

  /** The ids of the cards of collection `id` (`SELECT * FROM cards WHERE collection_id = ?`). */
  function CardsOf(cards: map<int, CardRow>, id: Option<int>): (r: set<int>)
    ensures id.None? ==> r == {}
    ensures forall k :: k in r <==> id.Some? && k in cards && cards[k].collectionId == id
  {
    if id.None? then {} else set k | k in cards && cards[k].collectionId == id
  }

  /** `UPDATE collections SET star_price = ? WHERE id = ?` */
  function SetCollectionPrice(collections: map<int, CollectionRow>, id: Option<int>, price: int): (r: map<int, CollectionRow>)
    ensures r.Keys == collections.Keys
    ensures forall k :: k in r ==> r[k] == if Some(k) == id then collections[k].(starPrice := Some(price)) else collections[k]
  {
    if id.Some? && id.value in collections then collections[id.value := collections[id.value].(starPrice := Some(price))]
    else collections
  }

  class Collection {
    var name: string
    var description: string
    var authorId: int
    var starPrice: Option<int>
    var isPublished: bool
    var linkId: string
    var createdAt: int
    var id: Option<int>

    /**
     * `Collection.__init__`: an empty or missing description becomes '', and
     * an empty or missing link becomes the first 16 digits of the uuid `u`;
     * a new collection is never published.
     */
    constructor (u: UuidHex, now: int, name: string, authorId: int, starPrice: Option<int> := Some(1),
                 description: Option<string> := None, linkId: Option<string> := None)
      ensures this.name == name && this.authorId == authorId && this.starPrice == starPrice
      ensures this.description == OrElse(description, "")
      ensures this.linkId != ""
      ensures linkId.Some? && linkId.value != "" ==> this.linkId == linkId.value
      ensures linkId.None? || linkId.value == "" ==> IsLinkId(this.linkId)
      ensures !isPublished && createdAt == now && id == None
    {
      this.name := name;
      this.description := OrElse(description, "");
      this.authorId := authorId;
      this.starPrice := starPrice;
      this.linkId := OrElse(linkId, LinkIdOf(u));
      isPublished := false;
      createdAt := now;
      id := None;
    }

    /**
     * `Collection.update_price`. `enableCollections` stands for the
     * configuration flag `ENABLE_COLLECTIONS`. When it is off, or the
     * collection has no cards, the price is 0; otherwise it is the sum of
     * the latest active non-gift trade price of each of its cards. The
     * price is stored on the object and in the collection's row.
     */
    method UpdatePrice(db: Db, enableCollections: bool) returns (total: int)
      requires db.Ready()
      modifies this, db
      ensures !enableCollections || CardsOf(old(db.cards), old(id)) == {} ==> total == 0
      ensures enableCollections && CardsOf(old(db.cards), old(id)) != {} ==>
                IsCollectionPrice(total, old(db.tradeLinks), CardsOf(old(db.cards), old(id)))
      ensures starPrice == Some(total)
      ensures db.All() == old(db.All()).(collections := SetCollectionPrice(old(db.collections), old(id), total))
      ensures id == old(id) && name == old(name) && description == old(description) && linkId == old(linkId)
      ensures authorId == old(authorId) && isPublished == old(isPublished) && createdAt == old(createdAt)
    {
      if !enableCollections {
        starPrice := Some(0);
        db.collections := SetCollectionPrice(db.collections, id, 0);
        return 0;
      }
      var cardIds := CardsOf(db.cards, id);
      if cardIds == {} {
        starPrice := Some(0);
        db.collections := SetCollectionPrice(db.collections, id, 0);
        return 0;
      }
      total := LatestPriceTotal(db.tradeLinks, cardIds);
      starPrice := Some(total);
      db.collections := SetCollectionPrice(db.collections, id, total);
    }
  }

  // ----- trade and collection links -----

  /** `UPDATE trade_links SET is_active = 0 WHERE id = ?` */
  function DeactivateTradeLink(links: map<int, TradeLinkRow>, id: Option<int>): (r: map<int, TradeLinkRow>)
    ensures r.Keys == links.Keys
    ensures forall k :: k in r ==> r[k].isActive == (links[k].isActive && Some(k) != id)
    ensures forall k :: k in r ==> r[k].(isActive := links[k].isActive) == links[k]
  {
    if id.Some? && id.value in links then links[id.value := links[id.value].(isActive := false)] else links
  }

  /** `UPDATE collection_links SET is_active = 0 WHERE id = ?` */
  function DeactivateCollectionLink(links: map<int, CollectionLinkRow>, id: Option<int>): (r: map<int, CollectionLinkRow>)
    ensures r.Keys == links.Keys
    ensures forall k :: k in r ==> r[k].isActive == (links[k].isActive && Some(k) != id)
    ensures forall k :: k in r ==> r[k].(isActive := links[k].isActive) == links[k]
  {
    if id.Some? && id.value in links then links[id.value := links[id.value].(isActive := false)] else links
  }

  class TradeLink {
    var linkId: string
    var cardId: int
    var sellerId: int
    var price: int
    var isGift: bool
    var createdAt: int
    var isActive: bool
    var id: Option<int>

    constructor (now: int, linkId: string, cardId: int, sellerId: int, price: int, isGift: bool := false)
      ensures this.linkId == linkId && this.cardId == cardId && this.sellerId == sellerId
      ensures this.price == price && this.isGift == isGift && createdAt == now
      ensures isActive && id == None
    {
      this.linkId := linkId;
      this.cardId := cardId;
      this.sellerId := sellerId;
      this.price := price;
      this.isGift := isGift;
      createdAt := now;
      isActive := true;
      id := None;
    }

    /** `TradeLink.deactivate`: the stored row and the object become inactive; nothing else changes. */
    method Deactivate(db: Db)
      requires db.Ready()
      modifies this, db
      ensures db.All() == old(db.All()).(tradeLinks := DeactivateTradeLink(old(db.tradeLinks), id))
      ensures !isActive && id == old(id)
      ensures linkId == old(linkId) && cardId == old(cardId) && sellerId == old(sellerId)
      ensures price == old(price) && isGift == old(isGift) && createdAt == old(createdAt)
    {
      db.tradeLinks := DeactivateTradeLink(db.tradeLinks, id);
      isActive := false;
    }
  }

  class CollectionLink {
    var linkId: string
    var collectionId: int
    var sellerId: int
    var createdAt: int
    var isActive: bool
    var id: Option<int>

    constructor (linkId: string, collectionId: int, sellerId: int, now: int)
      ensures this.linkId == linkId && this.collectionId == collectionId && this.sellerId == sellerId
      ensures createdAt == now && isActive && id == None
    {
      this.linkId := linkId;
      this.collectionId := collectionId;
      this.sellerId := sellerId;
      createdAt := now;
      isActive := true;
      id := None;
    }

    /** `CollectionLink.deactivate`: the stored row and the object become inactive; nothing else changes. */
    method Deactivate(db: Db)
      requires db.Ready()
      modifies this, db
      ensures db.All() == old(db.All()).(collectionLinks := DeactivateCollectionLink(old(db.collectionLinks), id))
      ensures !isActive && id == old(id)
      ensures linkId == old(linkId) && collectionId == old(collectionId) && sellerId == old(sellerId)
      ensures createdAt == old(createdAt)
    {
      db.collectionLinks := DeactivateCollectionLink(db.collectionLinks, id);
      isActive := false;
    }
  }
}

=== FILE: migration_facts.dfy ===
/**
 * What the migrator promises: the steps that run are exactly those newer
 * than the recorded version, in ascending order; each step guards its
 * changes so that running it again changes nothing; the backfills leave no
 * collection without a link and no card without a price; and a second run of
 * the whole migrator is a no-op.
 */
module MigrationFacts {
  import opened Wrappers
  import opened Strings
  import opened Rows
  import opened Migrations

  lemma StepsAscending()
    ensures forall i, j :: 0 <= i < j < |Steps| ==> Less(Steps[i], Steps[j])
  {
  }

  lemma StepsAtMostCurrent()
    ensures forall k :: 0 <= k < |Steps| ==> !Less(CurrentVersion, Steps[k])
  {
  }

  /** Nothing is pending once the recorded version is "1.7.0" or newer. */
  lemma NothingPendingWhenCurrent(current: string)
    requires !Less(current, CurrentVersion)
    ensures Pending(current) == []
  {
    StepsAtMostCurrent();
    if Pending(current) != [] {
      var k := Pending(current)[0];
      assert 0 <= k < |Steps| && Less(current, Steps[k]);
      if current != CurrentVersion {
        LessTotal(current, CurrentVersion);
        LessTransitive(CurrentVersion, current, Steps[k]);
      }
      assert false;
    }
  }

  /**
   * Every step is guarded: run a second time on its own result it changes
   * nothing, whatever link ids the second run would generate.
   */
  lemma StepIdempotent(k: nat, s: Snapshot, uuid: int -> UuidHex, uuid': int -> UuidHex)
    requires Step(k, s, uuid).Some?
    ensures Step(k, Step(k, s, uuid).value, uuid') == Step(k, s, uuid)
  {
    if k == 4 {
      BackfillIdempotent(s, uuid, uuid');
    } else if k == 5 {
      DefaultPricesIdempotent(s);
    } else if k < 4 {
      EarlyStepIdempotent(k, s, uuid, uuid');
    } else {
      LateStepIdempotent(k, s, uuid, uuid');
    }
  }

  /**
   * After step "1.4.0" every collection has a non-empty link; one that
   * already had a usable link keeps it, the others get a fresh 16-digit one.
   */
  lemma BackfillGivesLinks(s: Snapshot, uuid: int -> UuidHex)
    requires MigrateToV1_4_0(s, uuid).Some?
    ensures var r := MigrateToV1_4_0(s, uuid).value;
      && (forall id :: id in r.collections ==> !NeedsLink(r.collections[id]))
      && (forall id :: id in s.collections && LinkId in s.schema[Collections] && !NeedsLink(s.collections[id]) ==>
            r.collections[id] == s.collections[id])
      && (forall id :: id in s.collections && (LinkId !in s.schema[Collections] || NeedsLink(s.collections[id])) ==>
            r.collections[id].linkId.Some? && IsLinkId(r.collections[id].linkId.value))
  {
  }

  /**
   * After step "1.5.0" every card has a star price; one that had a price
   * keeps it, the others get 1.
   */
  lemma DefaultPricesFill(s: Snapshot)
    requires MigrateToV1_5_0(s).Some?
    ensures var r := MigrateToV1_5_0(s).value;
      && (forall id :: id in r.cards ==> r.cards[id].starPrice.Some?)
      && (forall id :: id in s.cards && StarPrice in s.schema[Cards] && s.cards[id].starPrice.Some? ==>
            r.cards[id] == s.cards[id])
      && (forall id :: id in s.cards && (StarPrice !in s.schema[Cards] || s.cards[id].starPrice.None?) ==>
            r.cards[id] == s.cards[id].(starPrice := Some(1)))
  {
    var s1 := EnsureColumn(s, Cards, StarPrice);
    if StarPrice in s.schema[Cards] {
      assert s1 == s;
    } else {
      StarPriceDefault(s);
    }
  }

  /** `ALTER TABLE cards ADD COLUMN star_price INTEGER DEFAULT 1` prices every card at 1. */
  lemma StarPriceDefault(s: Snapshot)
    requires Cards in s.schema && StarPrice !in s.schema[Cards]
    ensures EnsureColumn(s, Cards, StarPrice).cards == map id | id in s.cards :: s.cards[id].(starPrice := Some(1))
  {
    assert EnsureColumn(s, Cards, StarPrice) == AddColumn(s, Cards, StarPrice);
  }

  /** A second backfill finds no collection without a link. */
  lemma BackfillIdempotent(s: Snapshot, uuid: int -> UuidHex, uuid': int -> UuidHex)
    requires MigrateToV1_4_0(s, uuid).Some?
    ensures MigrateToV1_4_0(MigrateToV1_4_0(s, uuid).value, uuid') == MigrateToV1_4_0(s, uuid)
  {
    var s1 := MigrateToV1_4_0(s, uuid).value;
    BackfillGivesLinks(s, uuid);
    assert EnsureColumn(s1, Collections, LinkId) == s1;
    BackfillKeepsLinked(s1.collections, uuid');
  }

  lemma BackfillKeepsLinked(cols: map<int, CollectionRow>, uuid: int -> UuidHex)
    requires forall id :: id in cols ==> !NeedsLink(cols[id])
    ensures BackfillLinks(cols, uuid) == cols
  {
    var b := BackfillLinks(cols, uuid);
    assert b.Keys == cols.Keys;
    forall id | id in cols ensures b[id] == cols[id] {
    }
  }

  /** A second pass finds no card without a price. */
  lemma DefaultPricesIdempotent(s: Snapshot)
    requires MigrateToV1_5_0(s).Some?
    ensures MigrateToV1_5_0(MigrateToV1_5_0(s).value) == MigrateToV1_5_0(s)
  {
    var s1 := MigrateToV1_5_0(s).value;
    DefaultPricesFill(s);
    assert EnsureColumn(s1, Cards, StarPrice) == s1;
    DefaultKeepsPriced(s1.cards);
  }

  lemma DefaultKeepsPriced(cards: map<int, CardRow>)
    requires forall id :: id in cards ==> cards[id].starPrice.Some?
    ensures DefaultStarPrices(cards) == cards
  {
    var d := DefaultStarPrices(cards);
    assert d.Keys == cards.Keys;
    forall id | id in cards ensures d[id] == cards[id] {
    }
  }

  /** The first four steps only create tables and add columns. */
  lemma EarlyStepIdempotent(k: nat, s: Snapshot, uuid: int -> UuidHex, uuid': int -> UuidHex)
    requires k < 4
    requires Step(k, s, uuid).Some?
    ensures Step(k, Step(k, s, uuid).value, uuid') == Step(k, s, uuid)
  {
  }

  /** So do the last two, and an index past the last step does nothing. */
  lemma LateStepIdempotent(k: nat, s: Snapshot, uuid: int -> UuidHex, uuid': int -> UuidHex)
    requires k > 5
    requires Step(k, s, uuid).Some?
    ensures Step(k, Step(k, s, uuid).value, uuid') == Step(k, s, uuid)
  {
  }

  /**
   * After "1.7.0" is recorded, it is the version the next run reads, unless
   * a newer version was already recorded, which then stays the latest.
   */
  lemma {:induction false} LatestAfterRecording(versions: set<string>)
    ensures Latest(versions + {CurrentVersion}) ==
            if Less(CurrentVersion, Latest(versions)) then Latest(versions) else CurrentVersion
  {
    var v := CurrentVersion;
    var old_ := Latest(versions);
    var all := versions + {v};
    var expected := if Less(v, old_) then old_ else v;
    if versions == {} {
      assert all == {v};
      assert IsLatest(v, all);
    } else {
      assert IsLatest(expected, all) by {
        if Less(v, old_) {
          forall w | w in all ensures !Less(old_, w) {
            if w == v { LessAsymmetric(v, old_); }
          }
        } else {
          forall w | w in all ensures !Less(v, w) {
            if w != v && Less(v, w) {
              assert w in versions && !Less(old_, w);
              if v != old_ {
                LessTotal(v, old_);
                LessTransitive(old_, v, w);
              }
            }
          }
        }
      }
    }
    LatestUnique(Latest(all), expected, all);
  }

  /**
   * `init_db` records "1.7.0" and nothing else; afterwards "1.7.0" is the
   * latest recorded version unless a newer one was recorded before.
   */
  lemma MigrateRecordsCurrent(s: Snapshot, uuid: int -> UuidHex)
    requires Migrate(s, uuid).Some?
    ensures Migrate(s, uuid).value.versions == s.versions + {CurrentVersion}
    ensures Latest(Migrate(s, uuid).value.versions) ==
            if Less(CurrentVersion, Latest(s.versions)) then Latest(s.versions) else CurrentVersion
  {
    LatestAfterRecording(s.versions);
  }

  /** Running `init_db` again on a migrated store changes nothing at all. */
  lemma MigrateIdempotent(s: Snapshot, uuid: int -> UuidHex, uuid': int -> UuidHex)
    requires Migrate(s, uuid).Some?
    ensures Migrate(Migrate(s, uuid).value, uuid') == Migrate(s, uuid)
  {
    var s1 := Migrate(s, uuid).value;
    var latest := Latest(s1.versions);
    assert CurrentVersion in s1.versions;
    assert !Less(latest, CurrentVersion);
    NothingPendingWhenCurrent(latest);
    assert CreateIfAbsent(s1, SchemaMigrations, MigrationsColumns) == s1;
    assert s1.versions + {CurrentVersion} == s1.versions;
  }

  /**
   * One of the eight guarded steps of `init_db`: when step `k` is pending
   * and succeeds, or is not pending, the remaining run continues from the
   * new state.
   */
  lemma Advance(current: string, k: nat, pre: Snapshot, post: Snapshot, uuid: int -> UuidHex)
    requires k < |Steps|
    requires Less(current, Steps[k]) ==> Step(k, pre, uuid) == Some(post)
    requires !Less(current, Steps[k]) ==> post == pre
    ensures RunSteps(PendingFrom(current, k), pre, uuid) == RunSteps(PendingFrom(current, k + 1), post, uuid)
  {
    if Less(current, Steps[k]) {
      RunStepsCons(k, PendingFrom(current, k + 1), pre, uuid);
    }
  }

  /** A pending step that fails makes the whole remaining run fail. */
  lemma Fails(current: string, k: nat, pre: Snapshot, uuid: int -> UuidHex)
    requires k < |Steps| && Less(current, Steps[k])
    requires Step(k, pre, uuid).None?
    ensures RunSteps(PendingFrom(current, k), pre, uuid).None?
  {
    var ks := PendingFrom(current, k);
    assert ks[0] == k;
  }

  /** `Migrate` in terms of the version the run actually read. */
  lemma MigrateFromLatest(s: Snapshot, current: string, uuid: int -> UuidHex)
    requires IsLatest(current, s.versions)
    ensures var r := RunSteps(Pending(current), CreateIfAbsent(s, SchemaMigrations, MigrationsColumns), uuid);
            Migrate(s, uuid) == if r.None? then None else Some(r.value.(versions := r.value.versions + {CurrentVersion}))
  {
    LatestUnique(current, Latest(s.versions), s.versions);
  }

  /** `RunSteps` on a non-empty list: the first step, then the rest. */
  lemma RunStepsCons(k: nat, rest: seq<nat>, s: Snapshot, uuid: int -> UuidHex)
    requires Step(k, s, uuid).Some?
    ensures RunSteps([k] + rest, s, uuid) == RunSteps(rest, Step(k, s, uuid).value, uuid)
  {
    assert ([k] + rest)[1..] == rest;
  }

  /** Every step index, in order. */
  const AllSteps: seq<nat> := [0, 1, 2, 3, 4, 5, 6, 7]

  /** One step of `RunSteps` over the suffix `AllSteps[k..]`. */
  lemma RunSuffix(k: nat, s: Snapshot, s': Snapshot, final: Snapshot, uuid: int -> UuidHex)
    requires k < |AllSteps|
    requires Step(k, s, uuid) == Some(s')
    requires RunSteps(AllSteps[k + 1..], s', uuid) == Some(final)
    ensures RunSteps(AllSteps[k..], s, uuid) == Some(final)
  {
    assert AllSteps[k..][0] == k && AllSteps[k..][1..] == AllSteps[k + 1..];
  }

  /** Every step's version is greater than "0.0.0". */
  lemma NoVersionBeforeAll(k: nat)
    requires k < |Steps|
    ensures Less(NoVersion, Steps[k])
  {
    assert Steps[k][0] == '1';
  }

  lemma {:induction false} PendingFromNoVersion(k: nat)
    requires k <= |AllSteps|
    ensures PendingFrom(NoVersion, k) == AllSteps[k..]
    decreases |AllSteps| - k
  {
    if k < |AllSteps| {
      PendingFromNoVersion(k + 1);
      NoVersionBeforeAll(k);
      assert AllSteps[k..] == [k] + AllSteps[k + 1..];
    }
  }

  /** With no version recorded, every step is pending. */
  lemma AllPendingWhenNoneRecorded()
    ensures Pending(Latest({})) == AllSteps
  {
    assert Latest({}) == NoVersion;
    PendingFromNoVersion(0);
    assert AllSteps[0..] == AllSteps;
  }

  /** The tables that exist before step `k` of a run of all the steps, whatever the store held. */
  function TablesBefore(k: nat): set<Table>
  {
    if k == 0 then {SchemaMigrations}
    else if k == 1 then {SchemaMigrations, Users, Collections, Cards, TradeLinks}
    else if k < 7 then {SchemaMigrations, Users, Collections, Cards, TradeLinks, CollectionLinks}
    else {SchemaMigrations, Users, Collections, Cards, TradeLinks, CollectionLinks, Airdrops, AirdropCards}
  }

  /**
   * Each step finds the tables it alters: step "1.0.0" creates the four
   * base tables and step "1.6.0" the airdrop tables before "1.7.0" alters
   * one of them.
   */
  lemma StepAdvances(k: nat, s: Snapshot, uuid: int -> UuidHex)
    requires k < |AllSteps| && TablesBefore(k) <= s.schema.Keys
    ensures Step(k, s, uuid).Some? && TablesBefore(k + 1) <= Step(k, s, uuid).value.schema.Keys
  {
    if k < 4 {
      EarlyStepAdvances(k, s, uuid);
    } else {
      LateStepAdvances(k, s, uuid);
    }
  }

  lemma EarlyStepAdvances(k: nat, s: Snapshot, uuid: int -> UuidHex)
    requires k < 4 && TablesBefore(k) <= s.schema.Keys
    ensures Step(k, s, uuid).Some? && TablesBefore(k + 1) <= Step(k, s, uuid).value.schema.Keys
  {
  }

  lemma LateStepAdvances(k: nat, s: Snapshot, uuid: int -> UuidHex)
    requires 4 <= k < |AllSteps| && TablesBefore(k) <= s.schema.Keys
    ensures Step(k, s, uuid).Some? && TablesBefore(k + 1) <= Step(k, s, uuid).value.schema.Keys
  {
  }

  /** From the tables of step `k` on, the remaining steps all succeed and leave every table in place. */
  lemma {:induction false} SucceedsFrom(k: nat, s: Snapshot, uuid: int -> UuidHex)
    requires k <= |AllSteps| && TablesBefore(k) <= s.schema.Keys
    ensures RunSteps(AllSteps[k..], s, uuid).Some?
    ensures forall t: Table :: t in RunSteps(AllSteps[k..], s, uuid).value.schema
    decreases |AllSteps| - k
  {
    if k == |AllSteps| {
      assert AllSteps[k..] == [];
      forall t: Table ensures t in s.schema {
        match t {
          case SchemaMigrations =>
          case Users =>
          case Collections =>
          case Cards =>
          case TradeLinks =>
          case CollectionLinks =>
          case Airdrops =>
          case AirdropCards =>
        }
      }
    } else {
      StepAdvances(k, s, uuid);
      var s' := Step(k, s, uuid).value;
      SucceedsFrom(k + 1, s', uuid);
      RunSuffix(k, s, s', RunSteps(AllSteps[k + 1..], s', uuid).value, uuid);
    }
  }

  /**
   * With no version recorded (a new store, or one from before versioning)
   * every step runs, `init_db` cannot fail, every table exists afterwards and
   * "1.7.0" is the one version recorded.
   */
  lemma MigrateWhenNoneRecorded(s: Snapshot, uuid: int -> UuidHex)
    requires s.versions == {}
    ensures Migrate(s, uuid).Some?
    ensures forall t: Table :: t in Migrate(s, uuid).value.schema
    ensures Migrate(s, uuid).value.versions == {CurrentVersion}
  {
    MigrateRunsAll(s, uuid);
    var s0 := CreateIfAbsent(s, SchemaMigrations, MigrationsColumns);
    SucceedsFrom(0, s0, uuid);
    assert AllSteps[0..] == AllSteps;
  }

  /** With no version recorded `init_db` creates the version table, runs every step and records "1.7.0". */
  lemma MigrateRunsAll(s: Snapshot, uuid: int -> UuidHex)
    requires s.versions == {}
    ensures var r := RunSteps(AllSteps, CreateIfAbsent(s, SchemaMigrations, MigrationsColumns), uuid);
            Migrate(s, uuid) == if r.None? then None else Some(r.value.(versions := r.value.versions + {CurrentVersion}))
  {
    AllPendingWhenNoneRecorded();
    assert Pending(Latest(s.versions)) == AllSteps;
  }

  // ----- a run of every step leaves a complete schema -----

  /** Table `t`, if present, has at least the columns `CREATE TABLE` gives it. */
  ghost predicate CreatedTable(schema: Schema, t: Table)
  {
    t in schema ==> CreatedColumns(t) <= schema[t]
  }

  /** Every table present has at least the columns `CREATE TABLE` gives it. */
  ghost predicate Created(schema: Schema)
  {
    forall t :: CreatedTable(schema, t)
  }

  /** Table `t` exists and has column `c`. */
  ghost predicate HasColumn(schema: Schema, t: Table, c: Column)
  {
    t in schema && c in schema[t]
  }

  /**
   * What a run of all the steps has built before step `k`: the tables of
   * `TablesBefore(k)`, each table with its `CREATE TABLE` columns, and the
   * columns the earlier steps add with `ALTER TABLE`.
   */
  ghost predicate HasRequired(k: nat, schema: Schema)
  {
    && TablesBefore(k) <= schema.Keys
    && Created(schema)
    && (k > 2 ==> HasColumn(schema, Cards, AccessKey))
    && (k > 3 ==> HasColumn(schema, Collections, ReservationStatus))
    && (k > 3 ==> HasColumn(schema, Collections, ReservedBy))
    && (k > 3 ==> HasColumn(schema, Collections, ReservedAt))
    && (k > 5 ==> HasColumn(schema, Cards, StarPrice))
    && (k > 7 ==> HasColumn(schema, Airdrops, CoverImage))
  }

  /** `CREATE TABLE IF NOT EXISTS` keeps every table's `CREATE TABLE` columns. */
  lemma CreateKeepsCreated(s: Snapshot, t: Table)
    requires Created(s.schema)
    ensures Created(CreateIfAbsent(s, t, CreatedColumns(t)).schema)
  {
    var r := CreateIfAbsent(s, t, CreatedColumns(t));
    forall u
      ensures CreatedTable(r.schema, u)
    {
      assert CreatedTable(s.schema, u);
    }
  }

  /** A change that adds no table and drops no column keeps every table's `CREATE TABLE` columns. */
  lemma GrowKeepsCreated(s: Snapshot, r: Snapshot)
    requires Created(s.schema) && Grows(s, r) && r.schema.Keys == s.schema.Keys
    ensures Created(r.schema)
  {
    forall t
      ensures CreatedTable(r.schema, t)
    {
      if t in r.schema {
        assert CreatedTable(s.schema, t) && s.schema[t] <= r.schema[t];
      }
    }
  }

  /** `ALTER TABLE … ADD COLUMN` keeps the tables and every table's `CREATE TABLE` columns. */
  lemma EnsureKeepsCreated(s: Snapshot, t: Table, c: Column)
    requires Created(s.schema) && t in s.schema
    ensures EnsureColumn(s, t, c).schema.Keys == s.schema.Keys && Created(EnsureColumn(s, t, c).schema)
  {
    GrowKeepsCreated(s, EnsureColumn(s, t, c));
  }

  lemma RequiredV1_0_0(s: Snapshot)
    requires HasRequired(0, s.schema)
    ensures HasRequired(1, MigrateToV1_0_0(s).schema)
  {
    var s1 := CreateIfAbsent(s, Users, UsersColumns);
    var s2 := CreateIfAbsent(s1, Collections, CollectionsColumns);
    var s3 := CreateIfAbsent(s2, Cards, CardsColumns);
    CreateKeepsCreated(s, Users);
    CreateKeepsCreated(s1, Collections);
    CreateKeepsCreated(s2, Cards);
    CreateKeepsCreated(s3, TradeLinks);
  }

  lemma RequiredV1_1_0(s: Snapshot)
    requires HasRequired(1, s.schema)
    ensures MigrateToV1_1_0(s).Some? && HasRequired(2, MigrateToV1_1_0(s).value.schema)
  {
    assert Collections in TablesBefore(1);
    CreatedV1_1_0(s);
  }

  lemma CreatedV1_1_0(s: Snapshot)
    requires Created(s.schema) && Collections in s.schema
    ensures MigrateToV1_1_0(s).Some? && Created(MigrateToV1_1_0(s).value.schema)
  {
    var s1 := CreateIfAbsent(s, CollectionLinks, CollectionLinksColumns);
    var s2 := EnsureColumn(s1, Collections, Description);
    CreateKeepsCreated(s, CollectionLinks);
    EnsureKeepsCreated(s1, Collections, Description);
    EnsureKeepsCreated(s2, Collections, IsPublished);
  }

  lemma RequiredV1_2_0(s: Snapshot)
    requires HasRequired(2, s.schema)
    ensures MigrateToV1_2_0(s).Some? && HasRequired(3, MigrateToV1_2_0(s).value.schema)
  {
    GrowKeepsCreated(s, MigrateToV1_2_0(s).value);
  }

  lemma RequiredV1_3_0(s: Snapshot)
    requires HasRequired(3, s.schema)
    ensures MigrateToV1_3_0(s).Some? && HasRequired(4, MigrateToV1_3_0(s).value.schema)
  {
    var r := MigrateToV1_3_0(s).value;
    assert r.schema.Keys == s.schema.Keys;
    GrowKeepsCreated(s, r);
  }

  lemma RequiredV1_4_0(s: Snapshot, uuid: int -> UuidHex)
    requires HasRequired(4, s.schema)
    ensures MigrateToV1_4_0(s, uuid).Some? && HasRequired(5, MigrateToV1_4_0(s, uuid).value.schema)
  {
    var r := MigrateToV1_4_0(s, uuid).value;
    assert r.schema == s.schema[Collections := s.schema[Collections] + {LinkId}];
    GrowKeepsCreated(s, r);
  }

  lemma RequiredV1_5_0(s: Snapshot)
    requires HasRequired(5, s.schema)
    ensures MigrateToV1_5_0(s).Some? && HasRequired(6, MigrateToV1_5_0(s).value.schema)
  {
    var r := MigrateToV1_5_0(s).value;
    assert r.schema == s.schema[Cards := s.schema[Cards] + {StarPrice}];
    GrowKeepsCreated(s, r);
  }

  lemma RequiredV1_6_0(s: Snapshot)
    requires HasRequired(6, s.schema)
    ensures HasRequired(7, MigrateToV1_6_0(s).schema)
  {
    var s1 := CreateIfAbsent(s, Airdrops, AirdropsColumns);
    CreateKeepsCreated(s, Airdrops);
    CreateKeepsCreated(s1, AirdropCards);
  }

  lemma RequiredV1_7_0(s: Snapshot)
    requires HasRequired(7, s.schema)
    ensures MigrateToV1_7_0(s).Some? && HasRequired(8, MigrateToV1_7_0(s).value.schema)
  {
    GrowKeepsCreated(s, MigrateToV1_7_0(s).value);
  }

  /** Each step keeps what the next one finds (see the `RequiredV…` lemmas). */
  lemma StepKeepsRequired(k: nat, s: Snapshot, uuid: int -> UuidHex)
    requires k < |AllSteps| && HasRequired(k, s.schema)
    ensures Step(k, s, uuid).Some? && HasRequired(k + 1, Step(k, s, uuid).value.schema)
  {
    if k == 0 {
      RequiredV1_0_0(s);
    } else if k == 1 {
      RequiredV1_1_0(s);
    } else if k == 2 {
      RequiredV1_2_0(s);
    } else if k == 3 {
      RequiredV1_3_0(s);
    } else if k == 4 {
      RequiredV1_4_0(s, uuid);
    } else if k == 5 {
      RequiredV1_5_0(s);
    } else if k == 6 {
      RequiredV1_6_0(s);
    } else {
      RequiredV1_7_0(s);
    }
  }

  /** From what step `k` finds, the remaining steps all succeed and build everything. */
  lemma {:induction false} CompleteFrom(k: nat, s: Snapshot, uuid: int -> UuidHex)
    requires k <= |AllSteps| && HasRequired(k, s.schema)
    ensures RunSteps(AllSteps[k..], s, uuid).Some?
    ensures HasRequired(|AllSteps|, RunSteps(AllSteps[k..], s, uuid).value.schema)
    decreases |AllSteps| - k
  {
    if k == |AllSteps| {
      assert AllSteps[k..] == [];
    } else {
      StepKeepsRequired(k, s, uuid);
      var s' := Step(k, s, uuid).value;
      CompleteFrom(k + 1, s', uuid);
      RunSuffix(k, s, s', RunSteps(AllSteps[k + 1..], s', uuid).value, uuid);
    }
  }

  /** After the last step every table of the target schema exists with all its columns. */
  lemma RequiredIsComplete(schema: Schema)
    requires HasRequired(|AllSteps|, schema)
    ensures Complete(schema)
  {
    forall t | t in TargetSchema
      ensures t in schema && TargetSchema[t] <= schema[t]
    {
      assert t in TablesBefore(|AllSteps|) && CreatedTable(schema, t);
      TargetColumns(t);
    }
  }

  /** The target schema is each table's `CREATE TABLE` columns and the columns the steps add to it. */
  lemma TargetColumns(t: Table)
    ensures t in TargetSchema
    ensures t == Collections ==> TargetSchema[t] == CreatedColumns(t) + {ReservationStatus, ReservedBy, ReservedAt}
    ensures t == Cards ==> TargetSchema[t] == CreatedColumns(t) + {AccessKey, StarPrice}
    ensures t == Airdrops ==> TargetSchema[t] == CreatedColumns(t) + {CoverImage}
    ensures t != Collections && t != Cards && t != Airdrops ==> TargetSchema[t] == CreatedColumns(t)
  {
    match t {
      case SchemaMigrations => assert TargetSchema[t] == MigrationsColumns;
      case Users => assert TargetSchema[t] == UsersColumns;
      case Collections => assert TargetSchema[t] == CollectionsColumns + {ReservationStatus, ReservedBy, ReservedAt};
      case Cards => assert TargetSchema[t] == CardsColumns + {AccessKey, StarPrice};
      case TradeLinks => assert TargetSchema[t] == TradeLinksColumns;
      case CollectionLinks => assert TargetSchema[t] == CollectionLinksColumns;
      case Airdrops => assert TargetSchema[t] == AirdropsColumns + {CoverImage};
      case AirdropCards => assert TargetSchema[t] == AirdropCardsColumns;
    }
  }

  /**
   * `init_db` on a store with no version recorded whose tables have at least
   * the columns they are created with (in particular, a new, empty store)
   * succeeds and leaves every table and column the entity methods use.
   */
  lemma MigrateCompletes(s: Snapshot, uuid: int -> UuidHex)
    requires s.versions == {}
    requires Created(s.schema)
    ensures Migrate(s, uuid).Some? && Complete(Migrate(s, uuid).value.schema)
  {
    MigrateRunsAll(s, uuid);
    CreateKeepsCreated(s, SchemaMigrations);
    var s0 := CreateIfAbsent(s, SchemaMigrations, MigrationsColumns);
    CompleteFrom(0, s0, uuid);
    assert AllSteps[0..] == AllSteps;
    RequiredIsComplete(RunSteps(AllSteps, s0, uuid).value.schema);
  }
}

=== FILE: migrations.dfy ===
/**
 * The versioned schema migrator as a specification over values. A snapshot
 * holds what `init_db` reads and writes: the column set of every table, the
 * recorded versions, and the rows of the two tables it backfills. Each step
 * creates tables that are absent and adds a column only when it is missing;
 * altering a table that does not exist fails. On a failure the model
 * restores the whole store; SQLite itself keeps the schema statements that
 * ran before the run's first data change, which this model does not capture.
 */
module Migrations {
  import opened Wrappers
  import opened Strings
  import opened Rows

  type Schema = map<Table, set<Column>>

  datatype Snapshot = Snapshot(
    schema: Schema,
    versions: set<string>,
    cards: map<int, CardRow>,
    collections: map<int, CollectionRow>)

  /** An empty store, as on first start. */
  const Empty: Snapshot := Snapshot(map[], {}, map[], map[])

  // Tables as `CREATE TABLE IF NOT EXISTS` creates them.
  const MigrationsColumns: set<Column> := {Version, AppliedAt}
  const UsersColumns: set<Column> :=
    {Id, TelegramId, Username, FirstName, IsAdmin, CreatedAt}
  const CollectionsColumns: set<Column> :=
    {Id, Name, Description, AuthorId, StarPrice, IsPublished, LinkId, CreatedAt}
  const CardsColumns: set<Column> :=
    {Id, CardNumber, Name, OwnerId, RegistrationDate, Expires, EngravingColor,
     HasBackground, CollectionId, CreatedAt}
  const TradeLinksColumns: set<Column> :=
    {Id, LinkId, CardId, SellerId, Price, IsGift, CreatedAt, IsActive}
  const CollectionLinksColumns: set<Column> :=
    {Id, LinkId, CollectionId, SellerId, CreatedAt, IsActive}
  const AirdropsColumns: set<Column> :=
    {Id, Name, Description, CreatorId, MessageId, ChatId, IsActive, CreatedAt}
  const AirdropCardsColumns: set<Column> :=
    {Id, AirdropId, CardId, IsReserved, ReservedBy, ReservedAt}

  /** The versions of the steps, in the order `init_db` tries them. */
  const Steps: seq<string> := ["1.0.0", "1.1.0", "1.2.0", "1.3.0", "1.4.0", "1.5.0", "1.6.0", "1.7.0"]
  const CurrentVersion: string := "1.7.0"
  const NoVersion: string := "0.0.0"

  /** The schema every fully migrated store has. */
  const TargetSchema: Schema := map[
    SchemaMigrations := MigrationsColumns,
    Users := UsersColumns,
    Collections := CollectionsColumns + {ReservationStatus, ReservedBy, ReservedAt},
    Cards := CardsColumns + {AccessKey, StarPrice},
    TradeLinks := TradeLinksColumns,
    CollectionLinks := CollectionLinksColumns,
    Airdrops := AirdropsColumns + {CoverImage},
    AirdropCards := AirdropCardsColumns]

  /** Every table and column a fully migrated store has. */
  predicate Complete(schema: Schema)
  {
    forall t :: t in TargetSchema ==> t in schema && TargetSchema[t] <= schema[t]
  }

  /** The columns `CREATE TABLE IF NOT EXISTS` gives each table. */
  function CreatedColumns(t: Table): set<Column>
  {
    match t
    case SchemaMigrations => MigrationsColumns
    case Users => UsersColumns
    case Collections => CollectionsColumns
    case Cards => CardsColumns
    case TradeLinks => TradeLinksColumns
    case CollectionLinks => CollectionLinksColumns
    case Airdrops => AirdropsColumns
    case AirdropCards => AirdropCardsColumns
  }

  /**
   * What any migration step keeps: no version is recorded, no table or
   * column disappears, and no row is added or removed.
   */
  ghost predicate Grows(s: Snapshot, r: Snapshot)
  {
    && r.versions == s.versions
    && s.schema.Keys <= r.schema.Keys
    && (forall t :: t in s.schema ==> s.schema[t] <= r.schema[t])
    && r.cards.Keys == s.cards.Keys
    && r.collections.Keys == s.collections.Keys
  }

  // ----- the store's primitive operations -----

  /** `CREATE TABLE IF NOT EXISTS` */
  function CreateIfAbsent(s: Snapshot, table: Table, columns: set<Column>): (r: Snapshot)
    ensures table in r.schema
    ensures r.schema == if table in s.schema then s.schema else s.schema[table := columns]
    ensures r.versions == s.versions && r.cards == s.cards && r.collections == s.collections
  {
    if table in s.schema then s else s.(schema := s.schema[table := columns])
  }

  /**
   * `ALTER TABLE table ADD COLUMN column`: every existing row takes the
   * column's default (1 for `cards.star_price`, 0 for
   * `collections.is_published`) or NULL.
   */
  function AddColumn(s: Snapshot, table: Table, column: Column): (r: Snapshot)
    requires table in s.schema
    ensures r.schema == s.schema[table := s.schema[table] + {column}] && r.versions == s.versions
  {
    var s' := s.(schema := s.schema[table := s.schema[table] + {column}]);
    if table == Cards && column == AccessKey then
      s'.(cards := map id | id in s.cards :: s.cards[id].(accessKey := None))
    else if table == Cards && column == StarPrice then
      s'.(cards := map id | id in s.cards :: s.cards[id].(starPrice := Some(1)))
    else if table == Collections && column == Description then
      s'.(collections := map id | id in s.collections :: s.collections[id].(description := None))
    else if table == Collections && column == IsPublished then
      s'.(collections := map id | id in s.collections :: s.collections[id].(isPublished := false))
    else if table == Collections && column == LinkId then
      s'.(collections := map id | id in s.collections :: s.collections[id].(linkId := None))
    else s'
  }

  /**
   * `PRAGMA table_info` then `ALTER TABLE … ADD COLUMN` only when the column
   * is missing. (On a table that does not exist the column list is empty and
   * the ALTER fails; each step below checks for that first.)
   */
  function EnsureColumn(s: Snapshot, table: Table, column: Column): (r: Snapshot)
    requires table in s.schema
    ensures r.schema == s.schema[table := s.schema[table] + {column}]
    ensures column in s.schema[table] ==> r == s
    ensures Grows(s, r)
  {
    if column in s.schema[table] then
      assert s.schema[table] + {column} == s.schema[table];
      assert s.schema[table := s.schema[table] + {column}] == s.schema;
      s
    else AddColumn(s, table, column)
  }

  // ----- the steps -----

  function MigrateToV1_0_0(s: Snapshot): (r: Snapshot)
    ensures Grows(s, r)
    ensures {Users, Collections, Cards, TradeLinks} <= r.schema.Keys
  {
    var s1 := CreateIfAbsent(s, Users, UsersColumns);
    var s2 := CreateIfAbsent(s1, Collections, CollectionsColumns);
    var s3 := CreateIfAbsent(s2, Cards, CardsColumns);
    CreateIfAbsent(s3, TradeLinks, TradeLinksColumns)
  }

  function MigrateToV1_1_0(s: Snapshot): (r: Option<Snapshot>)
    ensures r.Some? <==> Collections in s.schema
    ensures r.Some? ==> Grows(s, r.value) && CollectionLinks in r.value.schema
    ensures r.Some? ==> {Description, IsPublished} <= r.value.schema[Collections]
  {
    var s1 := CreateIfAbsent(s, CollectionLinks, CollectionLinksColumns);
    if Collections !in s1.schema then None
    else Some(EnsureColumn(EnsureColumn(s1, Collections, Description), Collections, IsPublished))
  }

  function MigrateToV1_2_0(s: Snapshot): (r: Option<Snapshot>)
    ensures r.Some? <==> Cards in s.schema
    ensures r.Some? ==> Grows(s, r.value) && AccessKey in r.value.schema[Cards]
  {
    if Cards !in s.schema then None
    else Some(EnsureColumn(s, Cards, AccessKey))
  }

  function MigrateToV1_3_0(s: Snapshot): (r: Option<Snapshot>)
    ensures r.Some? <==> Collections in s.schema
    ensures r.Some? ==> Grows(s, r.value)
    ensures r.Some? ==> {ReservationStatus, ReservedBy, ReservedAt} <= r.value.schema[Collections]
  {
    if Collections !in s.schema then None
    else
      var s1 := EnsureColumn(s, Collections, ReservationStatus);
      var s2 := EnsureColumn(s1, Collections, ReservedBy);
      Some(EnsureColumn(s2, Collections, ReservedAt))
  }

  /** Backfill: each collection without a usable link gets `uuid(id)[:16]`. */
  function BackfillLinks(cols: map<int, CollectionRow>, uuid: int -> UuidHex): (r: map<int, CollectionRow>)
    ensures r.Keys == cols.Keys
    ensures forall id :: id in r ==> !NeedsLink(r[id])
    ensures forall id :: id in cols && !NeedsLink(cols[id]) ==> r[id] == cols[id]
    ensures forall id :: id in cols && NeedsLink(cols[id]) ==>
              r[id].linkId == Some(LinkIdOf(uuid(id))) && r[id].(linkId := cols[id].linkId) == cols[id]
  {
    map id | id in cols :: if NeedsLink(cols[id]) then cols[id].(linkId := Some(LinkIdOf(uuid(id)))) else cols[id]
  }

  /** Adds `link_id` to `collections` and backfills it (see `MigrationFacts.BackfillGivesLinks`). */
  function MigrateToV1_4_0(s: Snapshot, uuid: int -> UuidHex): (r: Option<Snapshot>)
    ensures r.Some? <==> Collections in s.schema
    ensures r.Some? ==> Grows(s, r.value) && LinkId in r.value.schema[Collections]
  {
    if Collections !in s.schema then None
    else
      var s1 := EnsureColumn(s, Collections, LinkId);
      Some(s1.(collections := BackfillLinks(s1.collections, uuid)))
  }

  /** `UPDATE cards SET star_price = 1 WHERE star_price IS NULL` */
  function DefaultStarPrices(cards: map<int, CardRow>): (r: map<int, CardRow>)
    ensures r.Keys == cards.Keys
    ensures forall id :: id in r ==> r[id].starPrice.Some?
    ensures forall id :: id in cards && cards[id].starPrice.Some? ==> r[id] == cards[id]
    ensures forall id :: id in cards && cards[id].starPrice.None? ==>
              r[id].starPrice == Some(1) && r[id].(starPrice := None) == cards[id]
  {
    map id | id in cards :: if cards[id].starPrice.None? then cards[id].(starPrice := Some(1)) else cards[id]
  }

  /** Adds `star_price` to `cards` and fills it in (see `MigrationFacts.DefaultPricesFill`). */
  function MigrateToV1_5_0(s: Snapshot): (r: Option<Snapshot>)
    ensures r.Some? <==> Cards in s.schema
    ensures r.Some? ==> Grows(s, r.value) && StarPrice in r.value.schema[Cards]
  {
    if Cards !in s.schema then None
    else
      var s1 := EnsureColumn(s, Cards, StarPrice);
      Some(s1.(cards := DefaultStarPrices(s1.cards)))
  }

  function MigrateToV1_6_0(s: Snapshot): (r: Snapshot)
    ensures Grows(s, r) && {Airdrops, AirdropCards} <= r.schema.Keys
  {
    var s1 := CreateIfAbsent(s, Airdrops, AirdropsColumns);
    CreateIfAbsent(s1, AirdropCards, AirdropCardsColumns)
  }

  function MigrateToV1_7_0(s: Snapshot): (r: Option<Snapshot>)
    ensures r.Some? <==> Airdrops in s.schema
    ensures r.Some? ==> Grows(s, r.value) && CoverImage in r.value.schema[Airdrops]
  {
    if Airdrops !in s.schema then None
    else Some(EnsureColumn(s, Airdrops, CoverImage))
  }

  /** The step at index `k` of `Steps`; an index past the last step does nothing. */
  function Step(k: nat, s: Snapshot, uuid: int -> UuidHex): (r: Option<Snapshot>)
    ensures r.Some? ==> Grows(s, r.value)
  {
    if k == 0 then Some(MigrateToV1_0_0(s))
    else if k == 1 then MigrateToV1_1_0(s)
    else if k == 2 then MigrateToV1_2_0(s)
    else if k == 3 then MigrateToV1_3_0(s)
    else if k == 4 then MigrateToV1_4_0(s, uuid)
    else if k == 5 then MigrateToV1_5_0(s)
    else if k == 6 then Some(MigrateToV1_6_0(s))
    else if k == 7 then MigrateToV1_7_0(s)
    else Some(s)
  }

  // ----- which steps run -----

  /** The indices from `k` on whose version is greater than `current`, in order. */
  function PendingFrom(current: string, k: nat): (r: seq<nat>)
    requires k <= |Steps|
    ensures |r| <= |Steps| - k
    decreases |Steps| - k
  {
    if k == |Steps| then []
    else if Less(current, Steps[k]) then [k] + PendingFrom(current, k + 1)
    else PendingFrom(current, k + 1)
  }

  /** The pending steps from `k` on are indices of `Steps` from `k` on, in strictly ascending order. */
  lemma {:induction false} PendingFromAscending(current: string, k: nat)
    requires k <= |Steps|
    ensures forall i :: 0 <= i < |PendingFrom(current, k)| ==> k <= PendingFrom(current, k)[i] < |Steps|
    ensures forall i, j :: 0 <= i < j < |PendingFrom(current, k)| ==> PendingFrom(current, k)[i] < PendingFrom(current, k)[j]
    decreases |Steps| - k
  {
    if k < |Steps| {
      PendingFromAscending(current, k + 1);
      var rest := PendingFrom(current, k + 1);
      if Less(current, Steps[k]) {
        var p := [k] + rest;
        assert PendingFrom(current, k) == p;
        forall i | 0 <= i < |p| ensures k <= p[i] < |Steps| {
          if i > 0 {
            assert p[i] == rest[i - 1];
          }
        }
        forall i, j | 0 <= i < j < |p| ensures p[i] < p[j] {
          assert p[j] == rest[j - 1];
          if i > 0 {
            assert p[i] == rest[i - 1];
          }
        }
      }
    }
  }

  /** The pending steps from `k` on are exactly those whose version is greater than `current`. */
  lemma {:induction false} PendingFromMembers(current: string, k: nat)
    requires k <= |Steps|
    ensures forall i :: i in PendingFrom(current, k) <==> k <= i < |Steps| && Less(current, Steps[i])
    decreases |Steps| - k
  {
    if k < |Steps| {
      PendingFromMembers(current, k + 1);
      var rest := PendingFrom(current, k + 1);
      if Less(current, Steps[k]) {
        assert PendingFrom(current, k) == [k] + rest;
      } else {
        assert PendingFrom(current, k) == rest;
      }
    }
  }

  /** The steps `init_db` runs: exactly those whose version is greater than `current`, by ascending index. */
  function Pending(current: string): (r: seq<nat>)
    ensures forall i :: i in r <==> 0 <= i < |Steps| && Less(current, Steps[i])
    ensures forall i, j :: 0 <= i < j < |r| ==> r[i] < r[j]
  {
    PendingFromMembers(current, 0);
    PendingFromAscending(current, 0);
    PendingFrom(current, 0)
  }

  /** Runs the steps in order, stopping at the first failure. */
  function RunSteps(ks: seq<nat>, s: Snapshot, uuid: int -> UuidHex): (r: Option<Snapshot>)
    ensures r.Some? ==> Grows(s, r.value)
  {
    if ks == [] then Some(s)
    else
      var s1 :- Step(ks[0], s, uuid);
      RunSteps(ks[1..], s1, uuid)
  }

  /** `SELECT version … ORDER BY version DESC LIMIT 1`, or "0.0.0" when none is recorded. */
  ghost predicate IsLatest(v: string, versions: set<string>)
  {
    if versions == {} then v == NoVersion
    else v in versions && forall w :: w in versions ==> !Less(v, w)
  }

  lemma LatestExists(versions: set<string>)
    ensures exists v :: IsLatest(v, versions)
    decreases |versions|
  {
    if versions == {} {
      assert IsLatest(NoVersion, versions);
    } else {
      var w :| w in versions;
      var rest := versions - {w};
      if rest == {} {
        assert versions == {w};
        LessIrreflexive(w);
        assert IsLatest(w, versions);
      } else {
        LatestExists(rest);
        var m :| IsLatest(m, rest);
        if Less(m, w) {
          forall x | x in versions ensures !Less(w, x) {
            LessIrreflexive(w);
            if x != w && Less(w, x) {
              LessTransitive(m, w, x);
            }
          }
          assert IsLatest(w, versions);
        } else {
          forall x | x in versions ensures !Less(m, x) {
          }
          assert IsLatest(m, versions);
        }
      }
    }
  }

  lemma LatestUnique(v: string, w: string, versions: set<string>)
    requires IsLatest(v, versions) && IsLatest(w, versions)
    ensures v == w
  {
    if v != w {
      LessTotal(v, w);
    }
  }

  ghost function Latest(versions: set<string>): (v: string)
    ensures IsLatest(v, versions)
  {
    LatestExists(versions);
    var v :| IsLatest(v, versions); v
  }

  /**
   * `init_db`: create the version table, run every step whose version is
   * greater than the latest recorded one, then record "1.7.0". `None` when a
   * step fails, in which case the store is left as it was.
   */
  ghost function Migrate(s: Snapshot, uuid: int -> UuidHex): (r: Option<Snapshot>)
    ensures r.Some? ==> r.value.versions == s.versions + {CurrentVersion} && SchemaMigrations in r.value.schema
    ensures r.Some? ==> s.schema.Keys <= r.value.schema.Keys && (forall t :: t in s.schema ==> s.schema[t] <= r.value.schema[t])
    ensures r.Some? ==> r.value.cards.Keys == s.cards.Keys && r.value.collections.Keys == s.collections.Keys
  {
    var s0 := CreateIfAbsent(s, SchemaMigrations, MigrationsColumns);
    var s1 :- RunSteps(Pending(Latest(s.versions)), s0, uuid);
    Some(s1.(versions := s1.versions + {CurrentVersion}))
  }
}

=== FILE: pricing.dfy ===
/**
 * The price of a collection: for every card of the collection, the price of
 * its most recent active, non-gift trade link, summed. Cards without such a
 * link add nothing. The query lists the qualifying links by `created_at`,
 * newest first (links with equal timestamps in any order); a loop keeps the
 * first price it sees per card; the prices are then summed.
 */
module Pricing {
  import opened Rows
  import opened Sets

  /** `card_id IN (…) AND is_active = 1 AND is_gift = 0` */
  predicate Qualifies(l: TradeLinkRow, cardIds: set<int>)
  {
    l.cardId in cardIds && l.isActive && !l.isGift
  }

  /** The ids of the links the query selects. */
  function Selected(links: map<int, TradeLinkRow>, cardIds: set<int>): set<int>
  {
    set id | id in links && Qualifies(links[id], cardIds)
  }

  /**
   * A link that is inactive or a gift takes no part in any price, whatever
   * card and price it holds: adding one changes nothing, and deactivating a
   * link drops it from the selection.
   */
  lemma NonQualifyingIgnored(links: map<int, TradeLinkRow>, cardIds: set<int>, id: int, l: TradeLinkRow)
    requires !l.isActive || l.isGift
    ensures Selected(links[id := l], cardIds) == Selected(links, cardIds) - {id}
  {
  }

  /**
   * `ids` is a possible answer of the query: every selected link exactly
   * once, newest first.
   */
  ghost predicate IsListing(ids: seq<int>, links: map<int, TradeLinkRow>, cardIds: set<int>)
  {
    && (forall i :: 0 <= i < |ids| ==> ids[i] in links && Qualifies(links[ids[i]], cardIds))
    && (forall id :: id in links && Qualifies(links[id], cardIds) ==> id in ids)
    && (forall i, j :: 0 <= i < j < |ids| ==> ids[i] != ids[j])
    && (forall i, j :: 0 <= i < j < |ids| ==> links[ids[j]].createdAt <= links[ids[i]].createdAt)
  }

  /** A selected link no other selected link is newer than. */
  lemma {:induction false} Newest(s: set<int>, links: map<int, TradeLinkRow>) returns (m: int)
    requires s != {} && s <= links.Keys
    ensures m in s && forall x :: x in s ==> links[x].createdAt <= links[m].createdAt
    decreases |s|
  {
    var x := Member(s);
    if s == {x} {
      m := x;
    } else {
      var rest := s - {x};
      var r := Newest(rest, links);
      m := if links[x].createdAt <= links[r].createdAt then r else x;
    }
  }

  /**
   * `SELECT card_id, price FROM trade_links WHERE … ORDER BY created_at DESC`:
   * the ids of the selected links, newest first; among links with the same
   * timestamp the order is not specified.
   */
  method SelectSales(links: map<int, TradeLinkRow>, cardIds: set<int>) returns (ids: seq<int>)
    ensures IsListing(ids, links, cardIds)
  {
    var remaining := Selected(links, cardIds);
    ids := [];
    while remaining != {}
      invariant remaining <= Selected(links, cardIds)
      invariant forall i :: 0 <= i < |ids| ==> ids[i] in Selected(links, cardIds) && ids[i] !in remaining
      invariant forall id :: id in Selected(links, cardIds) ==> id in remaining || id in ids
      invariant forall i, j :: 0 <= i < j < |ids| ==> ids[i] != ids[j]
      invariant forall i, j :: 0 <= i < j < |ids| ==> links[ids[j]].createdAt <= links[ids[i]].createdAt
      invariant forall i, x :: 0 <= i < |ids| && x in remaining ==> links[x].createdAt <= links[ids[i]].createdAt
      decreases remaining
    {
      ghost var newest := Newest(remaining, links);
      var m :| m in remaining && forall x :: x in remaining ==> links[x].createdAt <= links[m].createdAt;
      ids := ids + [m];
      remaining := remaining - {m};
    }
  }

  /** A row of the query's answer: `(card_id, price)`. */
  datatype Sale = Sale(cardId: int, price: int)

  function Sales(ids: seq<int>, links: map<int, TradeLinkRow>): (rows: seq<Sale>)
    requires forall i :: 0 <= i < |ids| ==> ids[i] in links
    ensures |rows| == |ids|
    ensures forall i :: 0 <= i < |ids| ==> rows[i] == Sale(links[ids[i]].cardId, links[ids[i]].price)
  {
    seq(|ids|, i requires 0 <= i < |ids| => Sale(links[ids[i]].cardId, links[ids[i]].price))
  }

  /** The row at `i` is the first row of its card. */
  ghost predicate FirstOfCard(rows: seq<Sale>, i: int)
    requires 0 <= i < |rows|
  {
    forall j :: 0 <= j < i ==> rows[j].cardId != rows[i].cardId
  }

  /**
   * `m` maps each card that occurs in `rows` to the price on its first row,
   * and holds nothing else.
   */
  ghost predicate KeepsFirst(rows: seq<Sale>, m: map<int, int>)
  {
    && (forall i :: 0 <= i < |rows| ==> rows[i].cardId in m)
    && (forall c :: c in m ==> exists i :: 0 <= i < |rows| && rows[i].cardId == c && m[c] == rows[i].price && FirstOfCard(rows, i))
  }

  /** `if card_id not in card_prices: card_prices[card_id] = row[1]` over the rows. */
  method CollectLatestPrices(rows: seq<Sale>) returns (cardPrices: map<int, int>)
    ensures KeepsFirst(rows, cardPrices)
  {
    cardPrices := map[];
    for n := 0 to |rows|
      invariant KeepsFirst(rows[..n], cardPrices)
    {
      var cardId := rows[n].cardId;
      if cardId !in cardPrices {
        cardPrices := cardPrices[cardId := rows[n].price];
      }
      assert rows[..n + 1][..n] == rows[..n];
    }
    assert rows[..|rows|] == rows;
  }

  /** The selected links of card `c`. */
  function LinksOfCard(links: map<int, TradeLinkRow>, cardIds: set<int>, c: int): set<int>
  {
    set id | id in links && Qualifies(links[id], cardIds) && links[id].cardId == c
  }

  /** No selected link of card `c` is newer than `id`. */
  ghost predicate IsNewest(links: map<int, TradeLinkRow>, cardIds: set<int>, c: int, id: int)
    requires id in links
  {
    forall other :: other in LinksOfCard(links, cardIds, c) ==> links[other].createdAt <= links[id].createdAt
  }

  /**
   * `m` gives each card with a selected link the price of one of its newest
   * selected links, and holds no other card.
   */
  ghost predicate LatestPrices(m: map<int, int>, links: map<int, TradeLinkRow>, cardIds: set<int>)
  {
    && (forall c :: c in m <==> LinksOfCard(links, cardIds, c) != {})
    && (forall c :: c in m ==>
          exists id :: id in LinksOfCard(links, cardIds, c) && m[c] == links[id].price && IsNewest(links, cardIds, c, id))
  }

  /** Keeping the first price per card of a newest-first listing gives every card its latest price. */
  lemma {:induction false} FirstIsLatest(ids: seq<int>, links: map<int, TradeLinkRow>, cardIds: set<int>, m: map<int, int>)
    requires IsListing(ids, links, cardIds)
    requires KeepsFirst(Sales(ids, links), m)
    ensures LatestPrices(m, links, cardIds)
  {
    var rows := Sales(ids, links);
    forall c | c in m
      ensures LinksOfCard(links, cardIds, c) != {}
      ensures exists id :: id in LinksOfCard(links, cardIds, c) && m[c] == links[id].price && IsNewest(links, cardIds, c, id)
    {
      var i :| 0 <= i < |rows| && rows[i].cardId == c && m[c] == rows[i].price && FirstOfCard(rows, i);
      FirstIsNewest(ids, links, cardIds, i);
      assert ids[i] in LinksOfCard(links, cardIds, c);
    }
    forall c | LinksOfCard(links, cardIds, c) != {}
      ensures c in m
    {
      var id := Member(LinksOfCard(links, cardIds, c));
      var i :| 0 <= i < |ids| && ids[i] == id;
      assert rows[i].cardId == c;
    }
  }

  /** In a newest-first listing, the first link of a card is one of that card's newest. */
  lemma FirstIsNewest(ids: seq<int>, links: map<int, TradeLinkRow>, cardIds: set<int>, i: int)
    requires IsListing(ids, links, cardIds)
    requires 0 <= i < |ids| && FirstOfCard(Sales(ids, links), i)
    ensures IsNewest(links, cardIds, links[ids[i]].cardId, ids[i])
  {
    var rows := Sales(ids, links);
    var c := links[ids[i]].cardId;
    forall other | other in LinksOfCard(links, cardIds, c)
      ensures links[other].createdAt <= links[ids[i]].createdAt
    {
      var j :| 0 <= j < |ids| && ids[j] == other;
      assert rows[j].cardId == c;
      assert i <= j;
    }
  }

  lemma HasKey(m: map<int, int>)
    requires m != map[]
    ensures exists k :: k in m
  {
    var k := Member(m.Keys);
  }

  /** The key `Total` takes first. */
  ghost function PickKey(m: map<int, int>): (k: int)
    requires m != map[]
    ensures k in m
  {
    HasKey(m);
    var k :| k in m; k
  }

  /** The sum of the values of a map, `sum(d.values())`. */
  ghost function Total(m: map<int, int>): int
    decreases |m|
  {
    if m == map[] then 0
    else
      var k := PickKey(m);
      m[k] + Total(m - {k})
  }

  /** The sum does not depend on which key is taken first. */
  lemma {:induction false} TotalRemove(m: map<int, int>, k: int)
    requires k in m
    ensures Total(m) == m[k] + Total(m - {k})
    decreases |m|
  {
    var j := PickKey(m);
    if j != k {
      var mj := m - {j};
      var mk := m - {k};
      TotalRemove(mj, k);
      TotalRemove(mk, j);
      assert mj - {k} == mk - {j};
    }
  }

  /** `sum(card_prices.values())` */
  method SumPrices(m: map<int, int>) returns (total: int)
    ensures total == Total(m)
  {
    total := 0;
    var rest := m;
    while rest != map[]
      invariant total + Total(rest) == Total(m)
      decreases |rest|
    {
      ghost var some := Member(rest.Keys);
      var k :| k in rest;
      TotalRemove(rest, k);
      total := total + rest[k];
      rest := rest - {k};
    }
  }

  /** A new link that is inactive or a gift leaves every card's latest price as it was. */
  lemma NonQualifyingKeepsLatest(links: map<int, TradeLinkRow>, cardIds: set<int>, id: int, l: TradeLinkRow, m: map<int, int>)
    requires id !in links && (!l.isActive || l.isGift)
    ensures LatestPrices(m, links[id := l], cardIds) <==> LatestPrices(m, links, cardIds)
  {
    var more := links[id := l];
    forall c
      ensures LinksOfCard(more, cardIds, c) == LinksOfCard(links, cardIds, c)
    {
      NonQualifyingIgnored(links, cardIds, id, l);
    }
    forall c, x | x in LinksOfCard(links, cardIds, c)
      ensures IsNewest(more, cardIds, c, x) <==> IsNewest(links, cardIds, c, x)
    {
    }
  }

  /** A new link that is inactive or a gift never changes what `update_price` computes. */
  lemma NonQualifyingKeepsPrice(links: map<int, TradeLinkRow>, cardIds: set<int>, id: int, l: TradeLinkRow, total: int)
    requires id !in links && (!l.isActive || l.isGift)
    ensures IsCollectionPrice(total, links[id := l], cardIds) <==> IsCollectionPrice(total, links, cardIds)
  {
    forall m
      ensures LatestPrices(m, links[id := l], cardIds) <==> LatestPrices(m, links, cardIds)
    {
      NonQualifyingKeepsLatest(links, cardIds, id, l, m);
    }
  }

  /** What `update_price` computes for a collection whose cards are `cardIds`. */
  ghost predicate IsCollectionPrice(total: int, links: map<int, TradeLinkRow>, cardIds: set<int>)
  {
    exists m :: LatestPrices(m, links, cardIds) && total == Total(m)
  }

  /**
   * The query, the loop and the sum: the collection's price as `update_price`
   * computes it once the collection is enabled and has cards.
   */
  method LatestPriceTotal(links: map<int, TradeLinkRow>, cardIds: set<int>) returns (total: int)
    ensures IsCollectionPrice(total, links, cardIds)
  {
    var ids := SelectSales(links, cardIds);
    var cardPrices := CollectLatestPrices(Sales(ids, links));
    FirstIsLatest(ids, links, cardIds, cardPrices);
    total := SumPrices(cardPrices);
  }

  /** When no card has two selected links with the same timestamp, the price is determined. */
  lemma LatestPricesUnique(links: map<int, TradeLinkRow>, cardIds: set<int>, m1: map<int, int>, m2: map<int, int>)
    requires forall a, b :: (a in links && b in links && a != b && Qualifies(links[a], cardIds) && Qualifies(links[b], cardIds) &&
               links[a].cardId == links[b].cardId) ==> links[a].createdAt != links[b].createdAt
    requires LatestPrices(m1, links, cardIds) && LatestPrices(m2, links, cardIds)
    ensures m1 == m2
  {
    forall c | c in m1
      ensures c in m2 && m1[c] == m2[c]
    {
      var a :| a in LinksOfCard(links, cardIds, c) && m1[c] == links[a].price && IsNewest(links, cardIds, c, a);
      var b :| b in LinksOfCard(links, cardIds, c) && m2[c] == links[b].price && IsNewest(links, cardIds, c, b);
      assert links[a].createdAt == links[b].createdAt;
    }
    forall c
      ensures c in m1 <==> c in m2
    {
      assert c in m1 <==> LinksOfCard(links, cardIds, c) != {};
    }
    assert m1.Keys == m2.Keys;
  }

  /** Only cards of the collection are priced, so links of other cards never count. */
  lemma PricedCardsInCollection(m: map<int, int>, links: map<int, TradeLinkRow>, cardIds: set<int>)
    requires LatestPrices(m, links, cardIds)
    ensures m.Keys <= cardIds
  {
    forall c | c in m
      ensures c in cardIds
    {
      var id := Member(LinksOfCard(links, cardIds, c));
    }
  }
}

=== FILE: rows.dfy ===
/**
 * The rows of the store's tables, typed. A column the program reads or writes
 * as NULL is an `Option`; a nullable column the program never sets to NULL
 * (dates, colours, flags) is a plain value. Timestamps are opaque ordered
 * integers. The `from_row` mappers decode a row
 * into the fields of an entity object, given the set of columns the table
 * actually has (`row.keys()`): a column that is missing takes its default.
 */
module Rows {
  import opened Wrappers
  import opened Strings

  /** The tables of the store. */
  datatype Table =
    | SchemaMigrations | Users | Collections | Cards | TradeLinks | CollectionLinks | Airdrops | AirdropCards

  /** The column names the tables use, across all versions of the schema. */
  datatype Column =
    | Version | AppliedAt | Id | TelegramId | Username | FirstName | IsAdmin | CreatedAt
    | Name | Description | AuthorId | StarPrice | IsPublished | LinkId
    | ReservationStatus | ReservedBy | ReservedAt
    | CardNumber | OwnerId | RegistrationDate | Expires | EngravingColor | HasBackground | CollectionId | AccessKey
    | CardId | SellerId | Price | IsGift | IsActive
    | CreatorId | MessageId | ChatId | CoverImage
    | AirdropId | IsReserved

  datatype UserRow = UserRow(
    telegramId: int,
    username: Option<string>,
    firstName: Option<string>,
    isAdmin: bool,
    createdAt: int)

  datatype CardRow = CardRow(
    cardNumber: int,
    name: string,
    ownerId: int,
    registrationDate: string,
    expires: string,
    engravingColor: string,
    hasBackground: bool,
    collectionId: Option<int>,
    createdAt: int,
    accessKey: Option<string>,
    starPrice: Option<int>)

  datatype CollectionRow = CollectionRow(
    name: string,
    description: Option<string>,
    authorId: int,
    starPrice: Option<int>,
    isPublished: bool,
    linkId: Option<string>,
    createdAt: int)

  datatype TradeLinkRow = TradeLinkRow(
    linkId: string,
    cardId: int,
    sellerId: int,
    price: int,
    isGift: bool,
    createdAt: int,
    isActive: bool)

  datatype CollectionLinkRow = CollectionLinkRow(
    linkId: string,
    collectionId: int,
    sellerId: int,
    createdAt: int,
    isActive: bool)

  datatype AirdropRow = AirdropRow(
    name: string,
    description: Option<string>,
    creatorId: int,
    messageId: Option<int>,
    chatId: Option<int>,
    isActive: bool,
    createdAt: int)

  datatype AirdropCardRow = AirdropCardRow(
    airdropId: int,
    cardId: int,
    isReserved: bool,
    reservedBy: Option<int>,
    reservedAt: Option<int>)

  /** `uuid.uuid4().hex`: 32 lower-case hexadecimal digits. */
  type UuidHex = s: string | |s| == 32 && IsLowerHex(s)
    witness "00000000000000000000000000000000"

  /** A collection share link: 16 lower-case hexadecimal digits. */
  predicate IsLinkId(s: string)
  {
    |s| == 16 && IsLowerHex(s)
  }

  /** `str(uuid.uuid4().hex)[:16]` (`_generate_link_id` and the v1.4.0 backfill). */
  function LinkIdOf(u: UuidHex): (l: string)
    ensures IsLinkId(l) && l != ""
    ensures l <= u
  {
    u[..16]
  }

  /** Python truthiness of an optional string: `s or default`. */
  function OrElse(s: Option<string>, default: string): (r: string)
    ensures s.Some? && s.value != "" ==> r == s.value
    ensures (s.None? || s.value == "") ==> r == default
  {
    if s.Some? && s.value != "" then s.value else default
  }

  /** A collection row still lacking a usable share link (`link_id IS NULL OR link_id = ''`). */
  predicate NeedsLink(c: CollectionRow)
  {
    c.linkId.None? || c.linkId.value == ""
  }

  /**
   * `Card.from_row`: every column is copied, except that a table without an
   * `access_key` column gives no key and one without `star_price` gives 1.
   */
  function CardFromRow(row: CardRow, columns: set<Column>): (c: CardRow)
    ensures c.accessKey == (if AccessKey in columns then row.accessKey else None)
    ensures c.starPrice == (if StarPrice in columns then row.starPrice else Some(1))
    ensures c.(accessKey := row.accessKey, starPrice := row.starPrice) == row
  {
    row.(accessKey := if AccessKey in columns then row.accessKey else None,
         starPrice := if StarPrice in columns then row.starPrice else Some(1))
  }

  /** Once both late columns exist, decoding a card row loses nothing. */
  lemma CardFromRowLossless(row: CardRow, columns: set<Column>)
    requires AccessKey in columns && StarPrice in columns
    ensures CardFromRow(row, columns) == row
  {
  }

  /**
   * `Collection.from_row` followed by `Collection.__init__`: a missing
   * `star_price` column gives 1, a missing `description` gives '', a missing
   * `link_id` gives none; then the constructor turns an empty description into
   * '' and an empty link into a freshly generated one (not written back).
   */
  function CollectionFromRow(row: CollectionRow, columns: set<Column>, u: UuidHex): (c: CollectionRow)
    ensures c.name == row.name && c.authorId == row.authorId && c.createdAt == row.createdAt
    ensures c.starPrice == (if StarPrice in columns then row.starPrice else Some(1))
    ensures c.description.Some?
    ensures c.description.value == (if Description in columns then OrElse(row.description, "") else "")
    ensures c.linkId.Some? && c.linkId.value != ""
    ensures LinkId in columns && !NeedsLink(row) ==> c.linkId == row.linkId
    ensures (LinkId !in columns || NeedsLink(row)) ==> c.linkId == Some(LinkIdOf(u))
    ensures c.isPublished == (IsPublished in columns && row.isPublished)
  {
    var starPrice := if StarPrice in columns then row.starPrice else Some(1);
    var description := if Description in columns then row.description else Some("");
    var linkId := if LinkId in columns then row.linkId else None;
    CollectionRow(
      row.name,
      Some(OrElse(description, "")),
      row.authorId,
      starPrice,
      IsPublished in columns && row.isPublished,
      Some(OrElse(linkId, LinkIdOf(u))),
      row.createdAt)
  }
}

=== FILE: sets.dfy ===
/** Small facts about finite sets used by the loops that consume a set. */
module Sets {

  /** Some element of a non-empty set. */
  lemma Member<T>(s: set<T>) returns (x: T)
    requires s != {}
    ensures x in s
  {
    if forall y :: y !in s {
      assert false;
    }
    x :| x in s;
  }
}

=== FILE: strings.dfy ===
/**
 * Text as the store compares it. Python's `<` on `str` and SQLite's BINARY
 * collation (used by `ORDER BY version DESC`) both order strings
 * lexicographically by code point, a proper prefix coming first. Dafny's own
 * `<` on sequences means "proper prefix", so the order is defined here.
 */
module Strings {

  /** `a < b` on Python strings. */
  predicate Less(a: string, b: string)
  {
    if |b| == 0 then false
    else if |a| == 0 then true
    else if a[0] != b[0] then a[0] < b[0]
    else Less(a[1..], b[1..])
  }

  /** A proper prefix comes first, and a string never comes before one of its own prefixes. */
  lemma {:induction false} LessPrefix(a: string, b: string)
    ensures a < b ==> Less(a, b)
    ensures b <= a ==> !Less(a, b)
  {
    if |a| > 0 && |b| > 0 && a[0] == b[0] {
      assert a < b ==> a[1..] < b[1..];
      assert b <= a ==> b[1..] <= a[1..];
      LessPrefix(a[1..], b[1..]);
    }
  }

  lemma {:induction false} LessIrreflexive(a: string)
    ensures !Less(a, a)
  {
    if |a| > 0 {
      LessIrreflexive(a[1..]);
    }
  }

  lemma {:induction false} LessTransitive(a: string, b: string, c: string)
    requires Less(a, b) && Less(b, c)
    ensures Less(a, c)
  {
    if |a| > 0 && a[0] == b[0] && b[0] == c[0] {
      LessTransitive(a[1..], b[1..], c[1..]);
    }
  }

  /** Any two distinct strings are ordered one way or the other. */
  lemma {:induction false} LessTotal(a: string, b: string)
    requires a != b
    ensures Less(a, b) || Less(b, a)
  {
    if |a| > 0 && |b| > 0 && a[0] == b[0] {
      assert a == [a[0]] + a[1..] && b == [b[0]] + b[1..];
      LessTotal(a[1..], b[1..]);
    }
  }

  lemma LessAsymmetric(a: string, b: string)
    requires Less(a, b)
    ensures !Less(b, a)
  {
    if Less(b, a) {
      LessTransitive(a, b, a);
      LessIrreflexive(a);
    }
  }

  predicate IsLowerHexChar(c: char)
  {
    '0' <= c <= '9' || 'a' <= c <= 'f'
  }

  predicate IsLowerHex(s: string)
  {
    forall i :: 0 <= i < |s| ==> IsLowerHexChar(s[i])
  }
}

=== FILE: wrappers.dfy ===
/** Optional values: the model of a nullable column or of a Python `None`. */
module Wrappers {

  datatype Option<+T> = None | Some(value: T) {

    predicate IsFailure() {
      None?
    }

    function PropagateFailure<U>(): Option<U>
      requires None?
    {
      None
    }

    function Extract(): T
      requires Some?
    {
      value
    }
  }
}
